=== FILE: README.md ===
# ArticleAutomation blog engine and review dashboard, in Dafny

This project models the core of a blog automation system. It has two parts.

The **engine** (`blog_engine.py`) does the following:

- It picks today's calendar post.
- It runs four model passes: generate, audit, fix when the audit has a critical issue, and social derivatives.
- It writes the draft files.
- It e-mails a notification.
- It approves a post from the command line.
- It generates a one-off post from a custom topic.

The **dashboard** (`dashboard.py`) lets a human list, review, save, approve, reject and reset drafts. It can also start an article from a news alert.

The file system is modelled as two stores, `drafts` and `approved`. Each is a map from file name to content. A post's five files are:

- `<slug>.html`
- `<slug>_audit.json`
- `<slug>_social.json`
- `<slug>_card.html`
- `<slug>_sitemap.xml`

Everything outside the core is an input to the model:

- each model reply, or the exception raised in its place;
- the mail server's answer;
- the GitHub push outcome;
- the calendar load;
- the card and sitemap text.

`json.loads` and `json.dumps` are a `Codec` of function values. The only promise assumed of it is that it round-trips and that a dump holds no carriage return, since JSON escapes control characters (`RoundTrips`), and only where a lemma needs that.

Files are written as is and read back in text mode (`ReadText`): "\r\n" and a lone "\r" come back as "\n". Every read of a draft goes through that translation. Character encoding is not modelled: a file is its text, and reading it back gives that text, as it does when the read uses UTF-8.

Modules, in dependency order:

- `Common`: `Option` and `Outcome`, which is a value or a raised exception.
- `Text`: the slice of Python's `str` that the code uses (`strip`, `replace`, `lower`, `title`, `[:n]`, `in`, code-point ordering, decimal rendering), on ASCII.
- `Fences`: the two `re.sub` calls with `re.MULTILINE` and the `strip()` that follows them, which every reply goes through.
- `Model`: calendar, audit, social, codec, stores and file names.
- `Resolver`: `get_next_scheduled_post`.
- `Passes`: what each pass makes of its reply.
- `Notify`: `format_draft_notification`.
- `Pipeline`:
  - `run_scheduled_pipeline`, over `Handlers`, the functions the engine applies to replies; `Standard` gives the engine's own;
  - `approve_and_deploy`;
  - `--mode generate`.
- `Dashboard`: the routes over the stores.
- `Alerts`: `generate_alert`, with its background job as a separate step.
- `Lifecycle`: lemmas that join the engine and the dashboard.

Behaviours of the code worth knowing:

- **Approval.** Approval from the command line (`approve_and_deploy`) copies the page into approved and leaves the draft in place. Only the dashboard's approval removes the drafts. `Lifecycle.ApprovalPathsDiffer` states the difference.
- **Normalising a generated page.** The code strips the fences and the surrounding whitespace, and nothing else. It does not cut the text down to the HTML document.
- **Parsing a JSON reply.** The code makes one parse attempt on the fence-free, stripped text. A reply that does not parse gets a fallback object.
- **Fix policy.** The code does not track where a page came from. Every audit with a critical issue triggers the fix pass.
- **The notification's third argument** (the draft path) is unused. The links use the dashboard URL, which is a parameter here.

## Model

| member | source | states |
|---|---|---|
| Text.Take | blog_engine.py:470 | `s[:n]` has length `min(n, len(s))` and is a prefix of `s` |
| Text.Strip | blog_engine.py:429 | `strip()` removes only leading and trailing whitespace: the result is `s` minus a whitespace prefix and suffix, and begins and ends with non-whitespace |
| Text.StripPadded | blog_engine.py:429 | stripping whitespace padding from a body that has no whitespace at its ends gives back the body |
| Text.ReplaceAllAbsent | dashboard.py:398 | `replace` leaves a text without the pattern unchanged |
| Text.TitleOfLower | blog_engine.py:921 | `title()` of a lower-cased text equals `title()` of the original |
| Text.Lower | blog_engine.py:921 | `lower()` leaves no upper-case letter, keeps each letter's place in the alphabet, and keeps every other character |
| Text.Title | dashboard.py:398 | `title()` capitalises the first letter of each run of letters and lower-cases the rest, keeping each letter's place in the alphabet and every other character; in the result, a letter is upper-case exactly when it starts a word |
| Text.ReplaceAll | dashboard.py:398 | `replace` gives the text back when the replacement equals the pattern or the text is shorter than the pattern; a shorter replacement never lengthens the text and a longer one never shortens it |
| Text.ReplaceAllFirst | dashboard.py:398 | `replace` keeps the text before the leftmost occurrence, replaces that occurrence, and carries on after it; with `ReplaceAllAbsent` this fixes the result, e.g. a slug "blog-" + d, with no further "blog-" in d, becomes d |
| Text.ReplaceChar | blog_engine.py:921 | replacing one character by another changes exactly the occurrences of the first and leaves none of them |
| Text.ReplaceCharRoundTrip | dashboard.py:398 | turning spaces into hyphens and back restores a text that had no hyphen |
| Text.StrLtIsCodePointOrder | dashboard.py:392 | the order `sorted` uses on names holds exactly when one name is a proper prefix of the other or has the smaller character at the first difference |
| Text.StrLtTransitive | dashboard.py:392 | the code-point order `sorted` uses is transitive |
| Text.StrLtTotal | dashboard.py:392 | any two different names are ordered one way or the other |
| Text.ReadText | dashboard.py:376 | reading a file back in text mode turns "\r\n" and a lone "\r" into "\n": no "\r" is left, a text without "\r" comes back unchanged, and nothing grows |
| Text.ReadTextIsTwoReplaces | dashboard.py:426 | that translation is the replacement of "\r\n" by "\n" followed by the replacement of every remaining "\r" by "\n" |
| Text.StripIsSubseq | blog_engine.py:429 | `strip()` only deletes characters: its result is a subsequence of its input |
| Text.ParseNatRoundTrip | blog_engine.py:612 | a count rendered in decimal reads back as the same count |
| Fences.FenceStrip | blog_engine.py:427-429 | the normalised reply never begins or ends with whitespace and is a subsequence of the reply |
| Fences.StripOpenings | blog_engine.py:427 | the opening-fence substitution gives a subsequence of its input, never longer |
| Fences.StripClosings | blog_engine.py:428 | the closing-fence substitution gives a subsequence of its input, never longer |
| Fences.RemoveFences | blog_engine.py:427-428 | the two fence substitutions only delete characters (the result is a subsequence of the reply), and leave a text with no backticks and no opening stem unchanged |
| Fences.NoFenceOnlyStrips | blog_engine.py:427-429 | a reply without three backticks is left alone by both substitutions and only stripped |
| Fences.StripsLabelledFence | blog_engine.py:427-429 | a reply "```html\n<body>\n```" (or "```json…") normalises to exactly the body |
| Fences.StripsBareFence | blog_engine.py:458-459 | a reply "```\n<body>\n```" without a language tag also normalises to the body |
| Fences.LastNewline | blog_engine.py:428 | the last newline before a position, or none: where `\s*$` backs off to |
| Passes.GeneratedPage | blog_engine.py:424-431 | pass 1's page has no whitespace at either end, and equals the stripped reply when the reply has no fence |
| Passes.ReadAudit | blog_engine.py:457-473 | a parsable reply is the audit; otherwise the audit is graded UNKNOWN, not publish-ready, with one critical issue, empty warnings and suggestions, and the first 2000 characters of the fence-free text |
| Passes.UnparsedAudit | blog_engine.py:463-471 | the fallback audit: grade UNKNOWN, not publish-ready, exactly one issue, of severity CRITICAL with the not-valid-JSON text, empty warnings and suggestions, and the first 2000 characters of the reply |
| Passes.FixPass | blog_engine.py:480-503 | without a critical issue the page is returned untouched and the reply never used; with one, the result is the fence-stripped reply or the call's exception |
| Passes.ReadSocial | blog_engine.py:529-540 | a parsable reply is the social content; otherwise an object with exactly the keys "error" and "raw", the fixed message, and at most 2000 characters of the fence-free text |
| Resolver.FirstEligibleFrom | blog_engine.py:375-380 | the index of the first post at or after `i` that is for the day and has no page in drafts or approved; none when there is none |
| Resolver.NextScheduledPost | blog_engine.py:365-382 | nothing off Monday, Wednesday and Friday; otherwise the first eligible post in calendar order, and nothing exactly when no post is eligible |
| Notify.Subject | blog_engine.py:606 | the subject starts with the check mark iff the audit is publish-ready (the warning sign otherwise) and shows the first 60 characters of the title |
| Notify.IssueText | blog_engine.py:620 | the warning text is the issue, else the recommendation, else empty |
| Notify.WarningLines | blog_engine.py:619-620 | one line per warning for at most five warnings, each a prefix of its text of length `min(120, len)` |
| Notify.CountsLineRoundTrip | blog_engine.py:597-612 | the counts line reads back as the three counts it was made from |
| Notify.CountsLine | blog_engine.py:613 | the counts line starts with "Critical: " and reads back as exactly the three counts it was made from |
| Notify.FormatDraftNotification | blog_engine.py:594-620 | the subject above; the plain text has the counts line, with the list lengths (0 for a missing list), on a line of its own, and ends with the warning lines |
| Pipeline.Publish | blog_engine.py:793-816 | the social pass, card, sitemap and notification write only the social, card and sitemap files; a social-pass exception aborts with drafts unchanged and no mail |
| Pipeline.PublishCompleted | blog_engine.py:793-816 | after a successful social pass all five files hold their contents and the last call is the notification for the audit passed in |
| Pipeline.Repair | blog_engine.py:780-790 | the fix branch always calls fix, touches only the post's files, and completes only when fix, re-audit and social all return |
| Pipeline.RepairCompleted | blog_engine.py:780-790 | a completed fix branch ends with the fixed page and the re-audit, both persisted and notified |
| Pipeline.Finish | blog_engine.py:780-796 | the fix call happens iff the first audit has a critical issue |
| Pipeline.FinishCompleted | blog_engine.py:780-816 | a completed run has the fixed page and the re-audit when the audit was critical, and the original page and audit otherwise, all persisted |
| Pipeline.RunScheduled | blog_engine.py:750-821 | nothing scheduled iff the resolver finds nothing, and then nothing is written or called; only the resolved post's five files change; no mail unless the run completes |
| Pipeline.FixGating | blog_engine.py:780-781 | a run that reaches the audit fixes iff that audit has a critical issue |
| Pipeline.CompletedRun | blog_engine.py:765-816 | a completed run's final page and audit are the fixed page and re-audit after a critical audit, and the generated page and first audit otherwise; all five files and the notification of the final audit are in place |
| Pipeline.EmailOutcomeIrrelevant | blog_engine.py:808-816 | whether mail delivery fails changes neither the drafts nor the calls nor whether the run completes |
| Pipeline.AbortKeepsEarlierWrites | blog_engine.py:765-776 | an unknown cluster or a failed generation writes nothing; a failed first audit leaves only the page |
| Pipeline.LateAbortsKeepEarlierWrites | blog_engine.py:779-796 | a failed fix leaves the generated page and first audit; a failed re-audit leaves the fixed page beside the first audit; a failed social pass leaves the final page and audit with no social, card or sitemap file; no mail in any case |
| Pipeline.PageAfterFixStep | blog_engine.py:779-782 | the run stops at the fix exactly when the audit is critical and the fix raises; the page on disk is the generated one after a clean audit and the fixed one after a critical audit |
| Pipeline.RepairIsFixPass | blog_engine.py:480-503 | with the engine's handlers, the page on disk after the fix step is what `pass3_fix` returns, and the run stops there exactly when `pass3_fix` raises |
| Pipeline.NeverRegenerates | blog_engine.py:376-380 | once a run has written the page, the resolver never picks that post again |
| Pipeline.CompletesIff | blog_engine.py:750-816 | a run completes iff a post is due, its cluster is known, generation, the first audit and the social pass return, and, after a critical audit, the fix and the re-audit return too |
| Pipeline.NotifiesFinalAudit | blog_engine.py:786-810 | with the engine's handlers and every needed reply, the run completes; the audit file holds the final audit; the notification's counts line gives that audit's counts |
| Pipeline.ApproveAndDeploy | blog_engine.py:855-890 | succeeds iff the draft exists; writes the draft as read back in text mode (newlines translated) into approved, changes no other approved file and leaves drafts unchanged |
| Pipeline.CustomSlug | blog_engine.py:921 | "blog-" followed by the topic lower-cased with spaces turned into hyphens, cut to 50 characters: length `5 + min(50, len)`, with no space or upper-case letter |
| Pipeline.GenerateCustom | blog_engine.py:915-933 | a missing or empty topic writes nothing; otherwise the fence-stripped page is saved under the custom slug, unless the cluster is missing, the call raises, or the slug holds '/' or NUL, in which case the write fails after the call |
| Pipeline.CustomSlugWritable | blog_engine.py:921 | the custom slug is a plain file name exactly when the first 50 characters of the topic hold no '/' and no NUL |
| Dashboard.LoadDraft | dashboard.py:370-385 | nothing iff the page is missing; otherwise the page as read back in text mode (unchanged when it has no "\r"), and the audit and social content parsed from their text as read back, each `{}` when missing or unparsable; files are taken to decode as UTF-8 |
| Dashboard.ListingTitle | dashboard.py:398 | the title has no hyphen, is no longer than the slug (exactly as long when "blog-" is absent), and is in title case: a letter is upper-case exactly when it starts a word; for a slug with no "blog-" it is the title of the slug with hyphens as spaces, and for "blog-" + d with no "blog-" in d, the title of d with hyphens as spaces |
| Dashboard.Review | dashboard.py:409-415 | not found iff the page is missing; otherwise the loaded page and audit under the listing title |
| Dashboard.InsertName | dashboard.py:392 | inserting a new name into a sorted list keeps it sorted, with one more element, the same names plus the new one |
| Dashboard.SortNames | dashboard.py:392 | `sorted` of a set of names: strictly increasing, with exactly the set's names |
| Dashboard.StemOf | dashboard.py:395 | `f.stem` of an ".html" file is the slug whose page is that file |
| Dashboard.EntryFor | dashboard.py:395-404 | a listed row: the slug whose page is the file, its loaded audit, the listing title and the audit's cluster or "" |
| Dashboard.ListDrafts | dashboard.py:388-404 | one row per ".html" draft whose stem does not end in "_card", in file-name order, each with its loaded audit, title and cluster |
| Dashboard.ListApproved | dashboard.py:405 | the approved ".html" names, sorted, all of them |
| Dashboard.Save | dashboard.py:474-479 | a non-empty form replaces the page; an empty one changes nothing; nothing else changes |
| Dashboard.FindPost | dashboard.py:440-444 | the first calendar post with the slug, or none when no post has it |
| Dashboard.IndexUpdate | dashboard.py:429-448 | the blog index is rebuilt iff the push succeeded, the calendar loaded and it holds the post |
| Dashboard.Approve | dashboard.py:418-459 | approval happens iff the form is non-empty or the page exists; the approved page is the form text, else the draft, as read back in text mode; it is pushed with "Publish: <slug>", the index rebuild follows iff possible, and all five draft files are gone whatever the push did |
| Dashboard.Reject | dashboard.py:462-471 | with a page, all five draft files are removed; without one nothing changes; approved is never touched |
| Dashboard.Present | dashboard.py:486-491 | the report lists exactly the names that exist in the folder |
| Dashboard.Reset | dashboard.py:482-494 | all five files leave both stores and nothing else changes; the report is "no files" iff none existed, and otherwise lists exactly those that did, drafts first |
| Alerts.CtaFor | dashboard.py:576-583 | the call to action is one of the four services, the mapped one for a known cluster and consultation for any other |
| Alerts.JobFor | dashboard.py:571-583 | the job's title, keywords and cluster follow the suggested value, else the headline (or "Untitled", "", the tax-strategy cluster) |
| Alerts.GenerateAlert | dashboard.py:547-596 | unknown ids are not found; generating or drafted alerts are left alone; any other is marked generating and gets a job |
| Alerts.Outcome | dashboard.py:587-594 | a finished job marks the alert drafted, keeping its error; a crashed one marks it "error" with the message |
| Alerts.FinishJob | dashboard.py:568-594 | ending a job writes its alert back and drops exactly that job |
| Alerts.GenerateAlertConsistent | dashboard.py:558-566 | starting a job never gives an alert a second job and keeps every job's alert "generating" |
| Alerts.FinishJobConsistent | dashboard.py:587-594 | ending a job keeps the board consistent |
| Alerts.StatusMovesAllowed | dashboard.py:558-594 | every status change is anything-but-generating/drafted to generating, or generating to drafted or error |
| Alerts.DraftedIsFinal | dashboard.py:561-562 | a drafted alert is never changed again |
| Alerts.RetryKeepsStaleError | dashboard.py:587-589 | a successful retry after an error leaves the old "error" message on the drafted alert |
| Model.ArtifactNamesDistinct | dashboard.py:485 | a post's five file names are five different files |
| Lifecycle.ReviewSeesLatest | dashboard.py:370-385 | with a round-tripping codec, and the platform's default encoding taken as UTF-8, the dashboard loads a completed run's final audit and social content exactly, and its final page as read back in text mode, which is the page itself when it has no "\r" |
| Lifecycle.ResetMakesSlotEligible | dashboard.py:482-494 | after reset, the post is eligible for its day again |
| Lifecycle.ApprovalPathsDiffer | blog_engine.py:855-866 | both approvals put the same text, the draft page as read back in text mode, in approved, so the post is never rescheduled; only the dashboard's removes the draft |
| Lifecycle.SlugTitleRoundTrip | dashboard.py:398 | a custom post without hyphens in its topic is listed under the first 50 characters of its topic in title case |

## Left out

- The model API, SMTP and GitHub calls are not modelled. Their replies, exceptions and success flags are inputs (`Replies`, `Remote`).
- The prompts and briefs sent to the model are text assembly only. They are not modelled.
- The `json` module is not modelled. Its parsers and dumpers are the `Codec` inputs, and only `RoundTrips` is assumed.
- JSON values that are not objects, and `null` values, are not modelled.
- The HTML bodies of the notification and confirmation e-mails are not modelled. The same holds for the dashboard's templates, redirects and HTTP status codes.
- `generate_blog_card_html` and `generate_sitemap_entry` are not modelled. Their output depends on the date and the templates, so their text is an input (`Fragments`).
- `load_calendar` reads a file, so the calendar is an input.
- A calendar that cannot be read, or that is malformed, is not modelled. The `Post` and `Cluster` records hold only the keys the model reads, and a missing key cannot be expressed. In the code:
  - `load_calendar` raising stops a run before any call or write;
  - a post without `title_es`, `keywords` or `sources_required` raises in pass 1, before anything is written;
  - a cluster without `category_tag`, `cta_service` or the two labels also raises in pass 1;
  - a cluster without `color` raises in `generate_blog_card_html`. That happens after the social file is written, so no card, sitemap or mail follows.
- `Dashboard.LoadDraft`: the audit and social files are read with the platform's default encoding (dashboard.py:378, 382), while the engine writes them as UTF-8 (blog_engine.py:774, 796). The model assumes the default is UTF-8. The audit dump is ASCII (`ensure_ascii` is on), so only the social file is affected. It is dumped with `ensure_ascii=False`, so under another default, such as cp1252, non-ASCII social text comes back garbled, or fails to decode and is loaded as `{}`. `Lifecycle.ReviewSeesLatest` relies on the same assumption.
- Writes are modelled as on a POSIX system: `write_text` stores the text unchanged. On Windows, "\n" would be written as "\r\n". Reading back would still give "\n".
- The drafts directory is taken to have no sub-directories. A slug holding '/' then always names a file that cannot be created (`Pipeline.GenerateCustom` fails at `AtWrite`). A slug that names an existing sub-directory, or one that `..` leads out of, is not modelled.
- The dashboard routes take the slug from the URL, which never holds '/'. The model does not restrict it.
- `datetime.now()` is an input: the weekday `today`.
- The Flask app, the scheduler thread and the background threads are not modelled. Interleavings are reduced to `FinishJob` as a separate step.
- `cron_runner.py` is not part of this model.
- The news monitor (`run_news_monitor`, `run_news_monitor_pipeline`, `format_news_alert`) is not part of this model.
- `reset-all`, `repush`, the social page, the trigger routes and the alerts view are not part of this model.
- `push_to_github`, `update_blog_index` and `run_custom_pipeline` are not defined in the files modelled. They are opaque steps whose failure is an input. Their effects on the site repository are not modelled: only the call is recorded.
- An alert file that does not parse is not modelled. The route would raise on it.
- Python's `lower`, `title`, `isspace` and `\s` are modelled on ASCII, not Unicode.
- `Pipeline.CustomSlug`: only ASCII letters are lower-cased, for the reason above.
- `Dashboard.ListingTitle`: only ASCII letters are title-cased, for the reason above.
- `Fences.FenceStrip`: only ASCII whitespace counts as `\s`, for the reason above.
- `Dashboard.ListDrafts`: paths are not modelled, so a file named exactly ".html" is never listed. In Python its stem is ".html" itself. It is listed, under slug ".html", when a file ".html.html" also exists, and the listing then shows two rows with that slug where the model shows one.
- `Passes.ReadAudit`: the contract states only the issue count of the fallback audit. `Passes.UnparsedAudit` states the issue's severity and text.
- `Pipeline.RunScheduled`: the scheduled pipeline takes its reply handlers as a parameter. `Standard` gives the engine's own. `Pipeline.NotifiesFinalAudit` states the engine's case. `Lifecycle.ReviewSeesLatest` holds for any handlers.
- Printing and logging are not modelled.

=== FILE: alerts.dfy ===
/** One-click generation from a news alert (`generate_alert` in
    dashboard.py): the alert's status moves to "generating" when a
    background job starts, and the job, as a later and separate step, ends
    it in "drafted" or "error". The article pipeline the job runs is outside
    the model; only its success or its exception matters here. */
module Alerts {

  import opened Common

  /** A saved alert as a JSON object; `None` is a missing key. */
  datatype Alert = Alert(
    status: Option<string>,
    headline: Option<string>,
    suggestedTitle: Option<string>,
    suggestedKeywords: Option<string>,
    clusterId: Option<string>,
    error: Option<string>)

  const Generating := "generating"
  const Drafted := "drafted"
  const Failed := "error"

  /** The cluster an alert without one is filed under. */
  const DefaultCluster := "4_tax_strategy"
  const DefaultCta := "consultation"

  /** `cta_map`: the service each known cluster's call to action promotes. */
  const CtaMap: map<string, string> := map[
    "1_act60_compliance" := "consultation",
    "2_business_structure" := "llc-formation",
    "3_bitcoin" := "bitcoin-accounting",
    "4_tax_strategy" := "consultation",
    "5_operations" := "bookkeeping"]

  /** The services a call to action can promote. */
  const Services: set<string> := {"consultation", "llc-formation", "bitcoin-accounting", "bookkeeping"}

  /** `cta_map.get(cluster, "consultation")`: the call to action is one of
      the four services, the mapped one for a known cluster and the
      consultation for any other. */
  function CtaFor(cluster: string): (cta: string)
    ensures cta in Services
    ensures cluster !in CtaMap ==> cta == DefaultCta
    ensures cluster in CtaMap ==> cta == CtaMap[cluster]
    ensures cta == "llc-formation" <==> cluster == "2_business_structure"
    ensures cta == "bitcoin-accounting" <==> cluster == "3_bitcoin"
    ensures cta == "bookkeeping" <==> cluster == "5_operations"
  {
    if cluster in CtaMap then CtaMap[cluster] else DefaultCta
  }

  /** The article a job asks for. */
  datatype Job = Job(alertId: string, snapshot: Alert, title: string, keywords: string, cluster: string, cta: string)

  /** The job for an alert: the suggested title, else the headline, else
      "Untitled"; the suggested keywords, else the headline, else nothing;
      the alert's cluster, else the tax-strategy cluster. */
  function JobFor(id: string, a: Alert): (j: Job)
    ensures j.alertId == id && j.snapshot == a
    ensures a.suggestedTitle.Some? ==> j.title == a.suggestedTitle.value
    ensures a.suggestedTitle.None? ==> j.title == a.headline.GetOr("Untitled")
    ensures a.suggestedKeywords.Some? ==> j.keywords == a.suggestedKeywords.value
    ensures a.suggestedKeywords.None? ==> j.keywords == a.headline.GetOr("")
    ensures a.clusterId.Some? ==> j.cluster == a.clusterId.value
    ensures a.clusterId.None? ==> j.cluster == DefaultCluster
    ensures j.cta == CtaFor(j.cluster)
  {
    var cluster := a.clusterId.GetOr(DefaultCluster);
    Job(id, a,
        a.suggestedTitle.GetOr(a.headline.GetOr("Untitled")),
        a.suggestedKeywords.GetOr(a.headline.GetOr("")),
        cluster,
        CtaFor(cluster))
  }

  /** The alerts folder, keyed by alert id, and the jobs still running. */
  datatype Board = Board(alerts: map<string, Alert>, jobs: seq<Job>)

  datatype Reply = NotFound(id: string) | AlreadyGenerating | AlreadyDrafted | Started(topic: string)

  /** `generate_alert`: an unknown id is not found; an alert being generated
      or already drafted is left alone; any other alert is marked
      "generating" and a job for it starts. The page shows the suggested
      title, else the headline, else nothing. */
  function GenerateAlert(b: Board, id: string): (r: (Board, Reply))
    ensures id !in b.alerts ==> r == (b, NotFound(id))
    ensures id in b.alerts && b.alerts[id].status == Some(Generating) ==> r == (b, AlreadyGenerating)
    ensures id in b.alerts && b.alerts[id].status == Some(Drafted) ==> r == (b, AlreadyDrafted)
    ensures r.1.Started? <==> id in b.alerts && b.alerts[id].status != Some(Generating) && b.alerts[id].status != Some(Drafted)
    ensures r.1.Started? ==>
      var marked := b.alerts[id].(status := Some(Generating));
      && r.0.alerts == b.alerts[id := marked]
      && r.0.jobs == b.jobs + [JobFor(id, marked)]
      && r.1.topic == b.alerts[id].suggestedTitle.GetOr(b.alerts[id].headline.GetOr(""))
  {
    if id !in b.alerts then (b, NotFound(id))
    else
      var a := b.alerts[id];
      if a.status == Some(Generating) then (b, AlreadyGenerating)
      else if a.status == Some(Drafted) then (b, AlreadyDrafted)
      else
        var marked := a.(status := Some(Generating));
        (Board(b.alerts[id := marked], b.jobs + [JobFor(id, marked)]),
         Started(a.suggestedTitle.GetOr(a.headline.GetOr(""))))
  }

  /** How a background job ended. */
  datatype End = Finished | Crashed(message: string)

  /** The alert a job writes back when it ends: its own snapshot, marked
      "drafted", or marked "error" with the exception's message. */
  function Outcome(snapshot: Alert, end: End): (a: Alert)
    ensures end.Finished? ==> a.status == Some(Drafted) && a.error == snapshot.error
    ensures end.Crashed? ==> a.status == Some(Failed) && a.error == Some(end.message)
    ensures a.headline == snapshot.headline && a.suggestedTitle == snapshot.suggestedTitle
    ensures a.suggestedKeywords == snapshot.suggestedKeywords && a.clusterId == snapshot.clusterId
  {
    match end
    case Finished => snapshot.(status := Some(Drafted))
    case Crashed(msg) => snapshot.(status := Some(Failed), error := Some(msg))
  }

  /** The end of job `k`: its alert is written back and the job is gone. */
  function FinishJob(b: Board, k: nat, end: End): (r: Board)
    requires k < |b.jobs|
    ensures r.alerts == b.alerts[b.jobs[k].alertId := Outcome(b.jobs[k].snapshot, end)]
    ensures |r.jobs| == |b.jobs| - 1
    ensures forall j :: j in r.jobs <==> j in b.jobs[..k] || j in b.jobs[k + 1..]
  {
    Board(b.alerts[b.jobs[k].alertId := Outcome(b.jobs[k].snapshot, end)], b.jobs[..k] + b.jobs[k + 1..])
  }

  /** Every running job belongs to an alert marked "generating" that still
      holds the job's snapshot, and no alert has two jobs. */
  predicate Consistent(b: Board) {
    && (forall k :: 0 <= k < |b.jobs| ==>
          b.jobs[k].alertId in b.alerts && b.alerts[b.jobs[k].alertId] == b.jobs[k].snapshot
          && b.jobs[k].snapshot.status == Some(Generating))
    && (forall k, l :: 0 <= k < l < |b.jobs| ==> b.jobs[k].alertId != b.jobs[l].alertId)
  }

  /** Starting a job keeps the board consistent: an alert that already has
      a job is "generating", so it never gets a second one. */
  lemma GenerateAlertConsistent(b: Board, id: string)
    requires Consistent(b)
    ensures Consistent(GenerateAlert(b, id).0)
  {
    var r := GenerateAlert(b, id);
    if r.1.Started? {
      assert forall k :: 0 <= k < |b.jobs| ==> b.jobs[k].alertId != id;
    }
  }

  /** Ending a job keeps the board consistent. */
  lemma FinishJobConsistent(b: Board, k: nat, end: End)
    requires Consistent(b) && k < |b.jobs|
    ensures Consistent(FinishJob(b, k, end))
  {
    var r := FinishJob(b, k, end);
    var id := b.jobs[k].alertId;
    forall i | 0 <= i < |r.jobs|
      ensures r.jobs[i].alertId in r.alerts && r.alerts[r.jobs[i].alertId] == r.jobs[i].snapshot
      ensures r.jobs[i].snapshot.status == Some(Generating)
    {
      var i' := if i < k then i else i + 1;
      assert r.jobs[i] == b.jobs[i'];
      assert b.jobs[i'].alertId != id;
    }
    forall i, l | 0 <= i < l < |r.jobs|
      ensures r.jobs[i].alertId != r.jobs[l].alertId
    {
      var i' := if i < k then i else i + 1;
      var l' := if l < k then l else l + 1;
      assert r.jobs[i] == b.jobs[i'] && r.jobs[l] == b.jobs[l'];
    }
  }

  /** The status moves the alert machine allows: none, from anything but
      "generating" and "drafted" to "generating", and from "generating" to
      "drafted" or "error". */
  predicate Allowed(before: Option<string>, after: Option<string>) {
    || before == after
    || (before != Some(Generating) && before != Some(Drafted) && after == Some(Generating))
    || (before == Some(Generating) && (after == Some(Drafted) || after == Some(Failed)))
  }

  /** Every status change a request or a job's end makes on a consistent
      board is an allowed move. In particular a drafted alert stays drafted
      for good, and a failed one can only be started again. */
  lemma StatusMovesAllowed(b: Board, id: string, k: nat, end: End, x: string)
    requires Consistent(b)
    ensures var r := GenerateAlert(b, id).0;
      x in b.alerts ==> x in r.alerts && Allowed(b.alerts[x].status, r.alerts[x].status)
    ensures k < |b.jobs| ==> var r := FinishJob(b, k, end);
      x in b.alerts ==> x in r.alerts && Allowed(b.alerts[x].status, r.alerts[x].status)
  {
  }

  /** A drafted alert is never generated again. */
  lemma DraftedIsFinal(b: Board, id: string, k: nat, end: End)
    requires Consistent(b) && id in b.alerts && b.alerts[id].status == Some(Drafted)
    ensures GenerateAlert(b, id).0 == b
    ensures k < |b.jobs| ==> FinishJob(b, k, end).alerts[id] == b.alerts[id]
  {
    if k < |b.jobs| {
      assert b.jobs[k].alertId != id;
    }
  }

  /** A job that succeeds after an earlier failure leaves the old error
      message on the drafted alert: nothing clears the "error" key. */
  lemma RetryKeepsStaleError(b: Board, id: string, msg: string)
    requires id in b.alerts && b.alerts[id].status == Some(Failed) && b.alerts[id].error == Some(msg)
    ensures var started := GenerateAlert(b, id).0;
      |started.jobs| == |b.jobs| + 1
      && var done := FinishJob(started, |b.jobs|, Finished);
      done.alerts[id].status == Some(Drafted) && done.alerts[id].error == Some(msg)
  {
  }
}

=== FILE: common.dfy ===
/** Failure-carrying wrappers shared by every module of the model. */
module Common {

  /** A value that may be absent: a missing dictionary key, a `None` return. */
  datatype Option<+T> = None | Some(value: T) {

    /** Python's `d.get(key, default)`: the value when present, else the default. */
    function GetOr(default: T): T {
      match this
      case Some(v) => v
      case None => default
    }
  }

  /** The outcome of a call into code outside the model: it returns a value
      or raises an exception carrying a message. */
  datatype Outcome<+T> = Ok(value: T) | Raised(message: string)

  function Min(a: int, b: int): int {
    if a <= b then a else b
  }
}

=== FILE: dashboard.dfy ===
/** The review dashboard's routes over the two stores (dashboard.py):
    loading a draft, the listing, save, approve, reject and reset. Requests,
    redirects and page rendering are left to the web framework; a route's
    model is what it reads and writes. */
module Dashboard {

  import opened Common
  import opened Text
  import opened Model

  // ---------------------------------------------------------------------
  // Loading a draft
  // ---------------------------------------------------------------------

  datatype Draft = Draft(html: string, audit: Audit, social: Social, slug: string)

  /** `load_draft`: nothing without the page; otherwise the page with its
      audit and social content, each `{}` when its file is missing or does
      not parse. */
  function LoadDraft(drafts: map<string, string>, slug: string, codec: Codec): (r: Option<Draft>)
    ensures r.None? <==> HtmlName(slug) !in drafts
    ensures r.Some? ==> r.value.slug == slug && r.value.html == ReadText(drafts[HtmlName(slug)])
    ensures r.Some? && NoCarriageReturn(drafts[HtmlName(slug)]) ==> r.value.html == drafts[HtmlName(slug)]
    ensures r.Some? && AuditName(slug) !in drafts ==> r.value.audit == EmptyAudit
    ensures r.Some? && SocialName(slug) !in drafts ==> r.value.social == EmptySocial
    ensures r.Some? && AuditName(slug) in drafts ==>
      r.value.audit == codec.parseAudit(ReadText(drafts[AuditName(slug)])).GetOr(EmptyAudit)
    ensures r.Some? && SocialName(slug) in drafts ==>
      r.value.social == codec.parseSocial(ReadText(drafts[SocialName(slug)])).GetOr(EmptySocial)
  {
    if HtmlName(slug) !in drafts then None
    else
      var audit := if AuditName(slug) in drafts then codec.parseAudit(ReadText(drafts[AuditName(slug)])).GetOr(EmptyAudit)
                   else EmptyAudit;
      var social := if SocialName(slug) in drafts then codec.parseSocial(ReadText(drafts[SocialName(slug)])).GetOr(EmptySocial)
                    else EmptySocial;
      Some(Draft(ReadText(drafts[HtmlName(slug)]), audit, social, slug))
  }

  /** The heading a draft is shown under: the slug without "blog-", with
      hyphens as spaces, in title case. */
  function ListingTitle(slug: string): (t: string)
    ensures |t| <= |slug|
    ensures !Contains(slug, "blog-") ==> |t| == |slug|
    ensures forall k :: 0 <= k < |t| ==> t[k] != '-'
    ensures forall k :: 0 <= k < |t| && IsLetter(t[k]) ==> (IsUpper(t[k]) <==> WordStart(t, k))
    ensures !Contains(slug, "blog-") ==> t == Title(ReplaceChar(slug, '-', ' '))
    ensures StartsWith(slug, "blog-") && !Contains(slug[5..], "blog-") ==>
      t == Title(ReplaceChar(slug[5..], '-', ' '))
  {
    var stripped := ReplaceAll(slug, "blog-", "");
    assert !Contains(slug, "blog-") ==> stripped == slug by {
      if !Contains(slug, "blog-") { ReplaceAllAbsent(slug, "blog-", ""); }
    }
    assert StartsWith(slug, "blog-") && !Contains(slug[5..], "blog-") ==> stripped == slug[5..] by {
      if StartsWith(slug, "blog-") && !Contains(slug[5..], "blog-") {
        assert slug == "" + "blog-" + slug[5..];
        ReplaceAllFirst("", "blog-", slug[5..], "");
        ReplaceAllAbsent(slug[5..], "blog-", "");
      }
    }
    Title(ReplaceChar(stripped, '-', ' '))
  }

  datatype ReviewPage = NotFound | ReviewPage(title: string, html: string, audit: Audit)

  /** The review route: "Draft not found" without the page. */
  function Review(drafts: map<string, string>, slug: string, codec: Codec): (r: ReviewPage)
    ensures r.NotFound? <==> LoadDraft(drafts, slug, codec).None?
    ensures r.ReviewPage? ==>
      r.title == ListingTitle(slug) && r.html == LoadDraft(drafts, slug, codec).value.html
      && r.audit == LoadDraft(drafts, slug, codec).value.audit
  {
    match LoadDraft(drafts, slug, codec)
    case None => NotFound
    case Some(d) => ReviewPage(ListingTitle(slug), d.html, d.audit)
  }

  // ---------------------------------------------------------------------
  // The listing
  // ---------------------------------------------------------------------

  /** File names in strictly increasing code-point order. */
  predicate SortedNames(xs: seq<string>) {
    forall i, j :: 0 <= i < j < |xs| ==> StrLt(xs[i], xs[j])
  }

  /** Places `n` among sorted names. */
  function InsertName(xs: seq<string>, n: string): (r: seq<string>)
    requires SortedNames(xs) && n !in xs
    ensures SortedNames(r)
    ensures |r| == |xs| + 1
    ensures forall m :: m in r <==> m in xs || m == n
  {
    if |xs| == 0 then [n]
    else if StrLt(n, xs[0]) then
      assert forall j :: 0 < j < |xs| ==> StrLt(n, xs[j]) by {
        forall j | 0 < j < |xs| ensures StrLt(n, xs[j]) { StrLtTransitive(n, xs[0], xs[j]); }
      }
      [n] + xs
    else
      StrLtTotal(n, xs[0]);
      var tail := InsertName(xs[1..], n);
      assert forall m :: m in tail ==> StrLt(xs[0], m) by {
        forall m | m in tail ensures StrLt(xs[0], m) {
          if m != n {
            var j :| 0 <= j < |xs[1..]| && xs[1..][j] == m;
            assert xs[j + 1] == m;
          }
        }
      }
      var r := [xs[0]] + tail;
      assert forall m :: m in r <==> m in xs || m == n by {
        assert xs == [xs[0]] + xs[1..];
      }
      r
  }

  /** The names of `names` in code-point order, as `sorted` gives them. */
  method SortNames(names: set<string>) returns (r: seq<string>)
    ensures SortedNames(r)
    ensures forall n :: n in r <==> n in names
    ensures |r| == |names|
  {
    r := [];
    var rest := names;
    while rest != {}
      invariant rest <= names
      invariant SortedNames(r)
      invariant forall n :: n in r <==> n in names && n !in rest
      invariant |r| + |rest| == |names|
      decreases |rest|
    {
      var n :| n in rest;
      r := InsertName(r, n);
      rest := rest - {n};
    }
  }

  /** A draft page the listing shows: an ".html" file whose stem does not
      end in "_card". */
  predicate Listed(name: string) {
    |name| > 5 && EndsWith(name, ".html") && !EndsWith(name[..|name| - 5], "_card")
  }

  /** The slug of a page file: its name without ".html". */
  function StemOf(name: string): (slug: string)
    requires |name| > 5 && EndsWith(name, ".html")
    ensures HtmlName(slug) == name
  {
    name[..|name| - 5]
  }

  datatype Entry = Entry(slug: string, title: string, cluster: string, audit: Audit)

  /** The row for one listed page. */
  function EntryFor(drafts: map<string, string>, name: string, codec: Codec): (e: Entry)
    requires name in drafts && Listed(name)
    ensures HtmlName(e.slug) == name
    ensures LoadDraft(drafts, e.slug, codec).Some?
    ensures e.audit == LoadDraft(drafts, e.slug, codec).value.audit
    ensures e.title == ListingTitle(e.slug)
    ensures e.cluster == e.audit.cluster.GetOr("")
  {
    var slug := StemOf(name);
    var d := LoadDraft(drafts, slug, codec).value;
    Entry(slug, ListingTitle(slug), d.audit.cluster.GetOr(""), d.audit)
  }

  /** The dashboard's draft list: one row for every listed page, in file
      name order, each with the title and cluster of its audit. Cards are
      never listed. */
  method ListDrafts(drafts: map<string, string>, codec: Codec) returns (entries: seq<Entry>)
    ensures forall i, j :: 0 <= i < j < |entries| ==> StrLt(HtmlName(entries[i].slug), HtmlName(entries[j].slug))
    ensures forall n :: n in drafts && Listed(n) <==> exists i :: 0 <= i < |entries| && HtmlName(entries[i].slug) == n
    ensures forall i :: 0 <= i < |entries| ==>
      && !EndsWith(entries[i].slug, "_card")
      && LoadDraft(drafts, entries[i].slug, codec).Some?
      && entries[i].audit == LoadDraft(drafts, entries[i].slug, codec).value.audit
      && entries[i].title == ListingTitle(entries[i].slug)
      && entries[i].cluster == entries[i].audit.cluster.GetOr("")
  {
    var listed := set n | n in drafts && Listed(n);
    var files := SortNames(listed);
    entries := [];
    var k := 0;
    while k < |files|
      invariant 0 <= k <= |files|
      invariant |entries| == k
      invariant forall i :: 0 <= i < k ==> HtmlName(entries[i].slug) == files[i]
      invariant forall i :: 0 <= i < k ==>
        && !EndsWith(entries[i].slug, "_card")
        && LoadDraft(drafts, entries[i].slug, codec).Some?
        && entries[i].audit == LoadDraft(drafts, entries[i].slug, codec).value.audit
        && entries[i].title == ListingTitle(entries[i].slug)
        && entries[i].cluster == entries[i].audit.cluster.GetOr("")
    {
      var name := files[k];
      assert name in listed;
      var e := EntryFor(drafts, name, codec);
      assert e.slug == name[..|name| - 5];
      entries := entries + [e];
      k := k + 1;
    }
    forall n | n in drafts && Listed(n)
      ensures exists i :: 0 <= i < |entries| && HtmlName(entries[i].slug) == n
    {
      assert n in listed;
      var i :| 0 <= i < |files| && files[i] == n;
      assert HtmlName(entries[i].slug) == n;
    }
    forall i | 0 <= i < |entries|
      ensures HtmlName(entries[i].slug) in drafts && Listed(HtmlName(entries[i].slug))
    {
      assert files[i] in listed;
    }
  }

  /** The approved column: the ".html" files of approved, in name order. */
  method ListApproved(approved: map<string, string>) returns (names: seq<string>)
    ensures SortedNames(names)
    ensures forall n :: n in names <==> n in approved && EndsWith(n, ".html")
  {
    names := SortNames(set n | n in approved && EndsWith(n, ".html"));
  }

  // ---------------------------------------------------------------------
  // Editing, approval, rejection, reset
  // ---------------------------------------------------------------------

  /** `save`: a non-empty edited page replaces the draft; an empty form
      changes nothing. */
  function Save(drafts: map<string, string>, slug: string, html: string): (r: map<string, string>)
    ensures html == "" ==> r == drafts
    ensures html != "" ==> HtmlName(slug) in r && r[HtmlName(slug)] == html
    ensures SameOutside(drafts, r, {HtmlName(slug)})
  {
    if html == "" then drafts else drafts[HtmlName(slug) := html]
  }

  /** What approval asks of GitHub: the push of the page, then the
      rebuild of the blog index for the calendar post. */
  datatype RemoteCall = PushFile(file: string, content: string, message: string) | UpdateIndex(post: Post)

  /** How the outside world answers: whether the push succeeded, and the
      calendar when it loads. */
  datatype Remote = Remote(pushSucceeds: bool, calendar: Option<Calendar>)

  /** The first calendar post with this slug. */
  function FindPost(posts: seq<Post>, slug: string): (r: Option<Post>)
    ensures r.Some? ==> r.value in posts && r.value.slug == slug
    ensures r.None? <==> forall i :: 0 <= i < |posts| ==> posts[i].slug != slug
    ensures r.Some? ==> exists i :: 0 <= i < |posts| && posts[i] == r.value &&
                          forall j :: 0 <= j < i ==> posts[j].slug != slug
  {
    if |posts| == 0 then None
    else if posts[0].slug == slug then Some(posts[0])
    else
      var r := FindPost(posts[1..], slug);
      assert r.Some? ==> exists i :: 0 <= i < |posts| && posts[i] == r.value &&
                           forall j :: 0 <= j < i ==> posts[j].slug != slug by {
        if r.Some? {
          var i :| 0 <= i < |posts[1..]| && posts[1..][i] == r.value
            && forall j :: 0 <= j < i ==> posts[1..][j].slug != slug;
          assert posts[i + 1] == r.value;
          assert forall j :: 0 <= j < i + 1 ==> posts[j].slug != slug by {
            forall j | 0 <= j < i + 1 ensures posts[j].slug != slug {
              if j > 0 { assert posts[j] == posts[1..][j - 1]; }
            }
          }
        }
      }
      r
  }

  /** The index rebuild approval attempts: only after a successful push,
      with a calendar that loads and holds the post. */
  function IndexUpdate(remote: Remote, slug: string): (r: Option<Post>)
    ensures r.Some? <==> remote.pushSucceeds && remote.calendar.Some?
                         && exists i :: 0 <= i < |remote.calendar.value.posts| && remote.calendar.value.posts[i].slug == slug
    ensures r.Some? ==> r == FindPost(remote.calendar.value.posts, slug)
  {
    if !remote.pushSucceeds then None
    else match remote.calendar
      case None => None
      case Some(cal) => FindPost(cal.posts, slug)
  }

  /** `approve`: a non-empty edited page is saved first; then, when a page
      exists, it is copied to approved, pushed, and every draft file of the
      post is removed — whether the push succeeded or not. */
  function Approve(st: Stores, slug: string, form: string, remote: Remote): (r: (Stores, seq<RemoteCall>))
    ensures var approves := form != "" || HtmlName(slug) in st.drafts;
      && (!approves ==> r.0 == st && r.1 == [])
      && (approves ==>
            var page := ReadText(if form != "" then form else st.drafts[HtmlName(slug)]);
            && HtmlName(slug) in r.0.approved && r.0.approved[HtmlName(slug)] == page
            && (forall n :: n in ArtifactSet(slug) ==> n !in r.0.drafts)
            && |r.1| >= 1 && r.1[0] == PushFile(HtmlName(slug), page, "Publish: " + slug)
            && (|r.1| == 2 <==> IndexUpdate(remote, slug).Some?)
            && |r.1| <= 2
            && (|r.1| == 2 ==> r.1[1] == UpdateIndex(IndexUpdate(remote, slug).value)))
    ensures SameOutside(st.drafts, r.0.drafts, ArtifactSet(slug))
    ensures SameOutside(st.approved, r.0.approved, {HtmlName(slug)})
  {
    var drafts := Save(st.drafts, slug, form);
    var name := HtmlName(slug);
    if name !in drafts then (st, [])
    else
      var page := ReadText(drafts[name]);
      var push := PushFile(name, page, "Publish: " + slug);
      var calls := match IndexUpdate(remote, slug)
        case None => [push]
        case Some(post) => [push, UpdateIndex(post)];
      (Stores(drafts - ArtifactSet(slug), st.approved[name := page]), calls)
  }

  /** `reject`: with a page present, every draft file of the post is
      removed; without one nothing changes. Approved is never touched. */
  function Reject(st: Stores, slug: string): (r: Stores)
    ensures r.approved == st.approved
    ensures HtmlName(slug) !in st.drafts ==> r == st
    ensures HtmlName(slug) in st.drafts ==> forall n :: n in ArtifactSet(slug) ==> n !in r.drafts
    ensures SameOutside(st.drafts, r.drafts, ArtifactSet(slug))
  {
    if HtmlName(slug) !in st.drafts then st
    else Stores(st.drafts - ArtifactSet(slug), st.approved)
  }

  datatype Folder = DraftsFolder | ApprovedFolder

  datatype Removed = Removed(folder: Folder, name: string)

  /** The names among `names` present in `m`, in the order given, tagged
      with their folder. */
  function Present(folder: Folder, names: seq<string>, m: map<string, string>): (r: seq<Removed>)
    ensures forall x :: x in r <==> x.folder == folder && x.name in names && x.name in m
    ensures |r| <= |names|
  {
    if |names| == 0 then []
    else
      var rest := Present(folder, names[1..], m);
      assert forall n :: n in names <==> n == names[0] || n in names[1..];
      if names[0] in m then [Removed(folder, names[0])] + rest else rest
  }

  datatype ResetReport = Cleared(removed: seq<Removed>) | NoFilesFound(slug: string)

  /** `reset`: every file of the post is removed from both stores, drafts
      first, so that the scheduler can generate it again; the report lists
      what was there, or says nothing was. */
  function Reset(st: Stores, slug: string): (r: (Stores, ResetReport))
    ensures forall n :: n in ArtifactSet(slug) ==> n !in r.0.drafts && n !in r.0.approved
    ensures SameOutside(st.drafts, r.0.drafts, ArtifactSet(slug))
    ensures SameOutside(st.approved, r.0.approved, ArtifactSet(slug))
    ensures r.1.NoFilesFound? <==> forall n :: n in ArtifactSet(slug) ==> n !in st.drafts && n !in st.approved
    ensures r.1.NoFilesFound? ==> r.1.slug == slug
    ensures r.1.Cleared? ==> forall x :: x in r.1.removed <==>
      x.name in ArtifactSet(slug)
      && ((x.folder == DraftsFolder && x.name in st.drafts) || (x.folder == ApprovedFolder && x.name in st.approved))
    ensures r.1.Cleared? ==> forall i, j :: 0 <= i < j < |r.1.removed| && r.1.removed[j].folder == DraftsFolder ==>
      r.1.removed[i].folder == DraftsFolder
  {
    var names := ArtifactNames(slug);
    var fromDrafts := Present(DraftsFolder, names, st.drafts);
    var fromApproved := Present(ApprovedFolder, names, st.approved);
    var removed := fromDrafts + fromApproved;
    var stores := Stores(st.drafts - ArtifactSet(slug), st.approved - ArtifactSet(slug));
    assert forall n :: n in ArtifactSet(slug) && n in st.drafts ==> Removed(DraftsFolder, n) in removed;
    assert forall n :: n in ArtifactSet(slug) && n in st.approved ==> Removed(ApprovedFolder, n) in removed;
    if |removed| == 0 then (stores, NoFilesFound(slug))
    else
      assert removed[0] in fromDrafts || removed[0] in fromApproved;
      (stores, Cleared(removed))
  }
}

=== FILE: fences.dfy ===
/** The markdown-fence normaliser applied to every model reply
    (blog_engine.py, pass1_generate, pass2_audit, pass3_fix, pass4_social).
    Two regular-expression substitutions run in turn, then the text is
    stripped of surrounding whitespace. The first deletes an opening fence
    at the start of any line: three backticks, a language name whose last
    letter is optional, and the whitespace after it. The second deletes
    three backticks followed by whitespace up to the end of a line or of
    the text.

    The two substitutions are modelled as left-to-right scans that try the
    pattern at each position, drop a match and resume after it, exactly as
    `re.sub` does; `^` holds at the start of the text and after a newline,
    `$` at the end of the text and before a newline. */
module Fences {

  import opened Common
  import opened Text

  /** The opening-fence pattern: `stem` is the literal part and `optional`
      the character the trailing `?` applies to ("```htm" + 'l' for
      `^```html?`, "```jso" + 'n' for `^```json?`). */
  datatype Fence = Fence(stem: string, optional: char)

  const Ticks := "```"
  const HtmlFence := Fence("```htm", 'l')
  const JsonFence := Fence("```jso", 'n')

  /** A fence whose stem begins with three backticks followed by a
      character that is neither a backtick nor a newline. */
  predicate ValidFence(f: Fence) {
    |f.stem| >= 4 && f.stem[..3] == Ticks && f.stem[3] != '`' && f.stem[3] != '\n'
  }

  lemma KnownFencesValid()
    ensures ValidFence(HtmlFence) && ValidFence(JsonFence)
  {
  }

  predicate NoBackticks(s: string) {
    forall i :: 0 <= i < |s| ==> s[i] != '`'
  }

  /** Length of the greedy `\s*` run at the head of `t`. */
  function SpaceRun(t: string): (n: nat)
    ensures n <= |t| && AllSpace(t[..n])
    ensures n < |t| ==> !IsSpace(t[n])
    decreases |t|
  {
    if |t| > 0 && IsSpace(t[0]) then
      var n := 1 + SpaceRun(t[1..]);
      assert t[..n] == [t[0]] + t[1..][..n - 1];
      n
    else 0
  }

  /** Length of the match of `^<stem><optional>?\s*` at the head of `t`;
      `lineStart` says whether `^` holds there. */
  function OpenMatch(t: string, f: Fence, lineStart: bool): (m: Option<nat>)
    requires |f.stem| > 0
    ensures m.Some? ==> lineStart && StartsWith(t, f.stem) && |f.stem| <= m.value <= |t|
    ensures lineStart && StartsWith(t, f.stem) ==> m.Some?
  {
    if lineStart && StartsWith(t, f.stem) then
      var j := if |t| > |f.stem| && t[|f.stem|] == f.optional then |f.stem| + 1 else |f.stem|;
      Some(j + SpaceRun(t[j..]))
    else None
  }

  /** `re.sub(r"^<stem><optional>?\s*", "", t, flags=re.MULTILINE)`, with
      `lineStart` telling whether the character before `t` was a newline
      (or `t` is the whole text). */
  function StripOpenings(t: string, f: Fence, lineStart: bool): (r: string)
    requires |f.stem| > 0
    ensures |r| <= |t|
    ensures SubseqOf(r, t)
    decreases |t|
  {
    if |t| == 0 then t
    else match OpenMatch(t, f, lineStart)
      case Some(n) =>
        var r := StripOpenings(t[n..], f, t[n - 1] == '\n');
        SubseqOfSuffix(r, t, n);
        r
      case None =>
        var r := [t[0]] + StripOpenings(t[1..], f, t[0] == '\n');
        assert r[1..] == StripOpenings(t[1..], f, t[0] == '\n');
        r
  }

  /** The largest `k` with `lo <= k < hi` and `t[k] == '\n'`. */
  function LastNewline(t: string, lo: nat, hi: nat): (k: Option<nat>)
    requires lo <= hi <= |t|
    ensures k.Some? ==> lo <= k.value < hi && t[k.value] == '\n'
    ensures k.Some? ==> forall i :: k.value < i < hi ==> t[i] != '\n'
    ensures k.None? ==> forall i :: lo <= i < hi ==> t[i] != '\n'
    decreases hi - lo
  {
    if hi == lo then None
    else if t[hi - 1] == '\n' then Some(hi - 1)
    else LastNewline(t, lo, hi - 1)
  }

  /** Length of the match of "```\s*$" at the head of `t`: the greedy
      whitespace run, backed off to the last point where `$` holds. */
  function CloseMatch(t: string): (m: Option<nat>)
    ensures m.Some? ==> StartsWith(t, Ticks) && 3 <= m.value <= |t|
    ensures m.Some? ==> AllSpace(t[3..m.value]) && (m.value == |t| || t[m.value] == '\n')
  {
    if StartsWith(t, Ticks) then
      var w := SpaceRun(t[3..]);
      assert forall i :: 3 <= i < 3 + w ==> IsSpace(t[i]) by {
        forall i | 3 <= i < 3 + w ensures IsSpace(t[i]) { assert t[i] == t[3..][..w][i - 3]; }
      }
      if 3 + w == |t| then Some(|t|)
      else
        var k := LastNewline(t, 3, 3 + w);
        if k.Some? then
          assert AllSpace(t[3..k.value]) by {
            forall i | 0 <= i < k.value - 3 ensures IsSpace(t[3..k.value][i]) { assert t[3..k.value][i] == t[i + 3]; }
          }
          k
        else k
    else None
  }

  /** `re.sub(r"```\s*$", "", t, flags=re.MULTILINE)`. */
  function StripClosings(t: string): (r: string)
    ensures |r| <= |t|
    ensures SubseqOf(r, t)
    decreases |t|
  {
    if |t| == 0 then t
    else match CloseMatch(t)
      case Some(n) =>
        var r := StripClosings(t[n..]);
        SubseqOfSuffix(r, t, n);
        r
      case None =>
        var r := [t[0]] + StripClosings(t[1..]);
        assert r[1..] == StripClosings(t[1..]);
        r
  }

  /** The two substitutions, before `strip()`: this is the text the audit
      and social passes keep a prefix of when parsing fails. They only
      delete characters, and leave a text without fences alone. */
  function RemoveFences(s: string, f: Fence): (r: string)
    requires |f.stem| > 0
    ensures |r| <= |s|
    ensures SubseqOf(r, s)
    ensures !Contains(s, Ticks) && !Contains(s, f.stem) ==> r == s
  {
    var unfenced := StripOpenings(s, f, true);
    var r := StripClosings(unfenced);
    SubseqOfTransitive(r, unfenced, s);
    assert !Contains(s, Ticks) && !Contains(s, f.stem) ==> r == s by {
      if !Contains(s, Ticks) && !Contains(s, f.stem) {
        OpeningsIdentity(s, f, true);
        ClosingsIdentity(s);
      }
    }
    r
  }

  /** The full normaliser: its output never begins or ends with whitespace,
      and is the reply with some characters deleted. */
  function FenceStrip(s: string, f: Fence): (r: string)
    requires |f.stem| > 0
    ensures |r| > 0 ==> !IsSpace(r[0]) && !IsSpace(r[|r| - 1])
    ensures SubseqOf(r, s)
  {
    var removed := RemoveFences(s, f);
    var r := Strip(removed);
    StripIsSubseq(removed);
    SubseqOfTransitive(r, removed, s);
    r
  }

  // ---------------------------------------------------------------------
  // Texts without fences pass through
  // ---------------------------------------------------------------------

  lemma {:induction false} OpeningsIdentity(t: string, f: Fence, lineStart: bool)
    requires |f.stem| > 0 && !Contains(t, f.stem)
    ensures StripOpenings(t, f, lineStart) == t
    decreases |t|
  {
    if |t| > 0 {
      assert !OccursAt(t, f.stem, 0);
      assert !StartsWith(t, f.stem);
      if Contains(t[1..], f.stem) { ContainsTail(t, f.stem); }
      OpeningsIdentity(t[1..], f, t[0] == '\n');
      assert [t[0]] + t[1..] == t;
    }
  }

  lemma {:induction false} ClosingsIdentity(t: string)
    requires !Contains(t, Ticks)
    ensures StripClosings(t) == t
    decreases |t|
  {
    if |t| > 0 {
      assert !OccursAt(t, Ticks, 0);
      assert !StartsWith(t, Ticks);
      if Contains(t[1..], Ticks) { ContainsTail(t, Ticks); }
      ClosingsIdentity(t[1..]);
      assert [t[0]] + t[1..] == t;
    }
  }

  lemma StemContainsTicks(t: string, f: Fence)
    requires ValidFence(f) && Contains(t, f.stem)
    ensures Contains(t, Ticks)
  {
    var i :| 0 <= i <= |t| - |f.stem| && OccursAt(t, f.stem, i);
    assert t[i..i + 3] == t[i..i + |f.stem|][..3];
    assert OccursAt(t, Ticks, i);
  }

  /** A reply with no "```" anywhere is only stripped of surrounding
      whitespace. */
  lemma NoFenceOnlyStrips(s: string, f: Fence)
    requires ValidFence(f) && !Contains(s, Ticks)
    ensures RemoveFences(s, f) == s
    ensures FenceStrip(s, f) == Strip(s)
  {
    if Contains(s, f.stem) { StemContainsTicks(s, f); }
  }

  // ---------------------------------------------------------------------
  // Fenced replies give back their body
  // ---------------------------------------------------------------------

  lemma {:induction false} ClosingsSkipPlainPrefix(x: string, y: string)
    requires NoBackticks(x)
    ensures StripClosings(x + y) == x + StripClosings(y)
    decreases |x|
  {
    if |x| > 0 {
      var t := x + y;
      assert StripClosings(t) == [x[0]] + StripClosings(x[1..] + y) by {
        assert t[0] == x[0] && t[1..] == x[1..] + y;
        assert !StartsWith(t, Ticks) by {
          if |t| >= 3 { assert t[..3][0] == x[0]; }
        }
      }
      ClosingsSkipPlainPrefix(x[1..], y);
      ConsOntoTail(x, StripClosings(y));
    } else {
      assert x + y == y;
    }
  }

  lemma ClosingFenceAtEnd()
    ensures StripClosings("\n```") == "\n"
  {
    assert CloseMatch("```") == Some(3);
    assert StripClosings("```") == "";
    assert "\n```"[..3][0] == '\n';
    assert !StartsWith("\n```", Ticks);
    assert "\n```"[1..] == "```";
  }

  /** One mismatching character rules out an occurrence. */
  lemma MismatchAt(s: string, p: string, i: int, k: int)
    requires 0 <= k < |p|
    requires 0 <= i && i + |p| <= |s| ==> s[i + k] != p[k]
    ensures !OccursAt(s, p, i)
  {
    if 0 <= i && i + |p| <= |s| {
      assert s[i..i + |p|][k] == s[i + k];
    }
  }

  lemma StemStartsWithTicks(f: Fence)
    requires ValidFence(f)
    ensures f.stem[0] == '`' && f.stem[1] == '`' && f.stem[2] == '`'
  {
    assert f.stem[..3] == Ticks;
  }

  /** A body followed by a closing fence holds no opening-fence stem. */
  lemma NoStemBeforeClosing(b: string, f: Fence)
    requires ValidFence(f) && NoBackticks(b)
    ensures !Contains(b + "\n```", f.stem)
  {
    var t := b + "\n```";
    StemStartsWithTicks(f);
    forall i | 0 <= i <= |t| - |f.stem|
      ensures !OccursAt(t, f.stem, i)
    {
      if i < |b| {
        assert t[i] == b[i];
      }
      MismatchAt(t, f.stem, i, 0);
    }
  }

  /** The opening substitution removes a labelled opening line and
      nothing else. */
  lemma OpeningsOfLabelledFence(b: string, f: Fence)
    requires ValidFence(f) && NoBackticks(b)
    requires |b| > 0 && !IsSpace(b[0])
    ensures StripOpenings(f.stem + [f.optional] + "\n" + (b + "\n```"), f, true) == b + "\n```"
  {
    var rest := b + "\n```";
    var s := f.stem + [f.optional] + "\n" + rest;
    var n := |f.stem| + 2;
    calc {
      StripOpenings(s, f, true);
    == { LabelledOpenMatch(f, rest); OpeningsAfterMatch(s, f, true, n); }
      StripOpenings(s[n..], f, s[n - 1] == '\n');
    == { assert s[n..] == rest; }
      StripOpenings(rest, f, true);
    == { NoStemBeforeClosing(b, f); OpeningsIdentity(rest, f, true); }
      rest;
    }
  }

  /** The opening pattern matches the stem, its optional letter and the
      newline after them, and stops at the first non-space character. */
  lemma LabelledOpenMatch(f: Fence, rest: string)
    requires |f.stem| > 0 && |rest| > 0 && !IsSpace(rest[0])
    ensures OpenMatch(f.stem + [f.optional] + "\n" + rest, f, true) == Some(|f.stem| + 2)
  {
    var s := f.stem + [f.optional] + "\n" + rest;
    var n := |f.stem| + 1;
    assert StartsWith(s, f.stem) by { assert s[..|f.stem|] == f.stem; }
    assert s[|f.stem|] == f.optional;
    assert s[n..] == "\n" + rest;
    assert SpaceRun(s[n..]) == 1 by {
      assert s[n..][1..] == rest;
    }
  }


  /** An opening fence matched at the head is dropped and the scan resumes
      after it. */
  lemma OpeningsAfterMatch(t: string, f: Fence, lineStart: bool, n: nat)
    requires |f.stem| > 0 && OpenMatch(t, f, lineStart) == Some(n)
    ensures 0 < n <= |t|
    ensures StripOpenings(t, f, lineStart) == StripOpenings(t[n..], f, t[n - 1] == '\n')
  {
  }


  /** A reply `<stem><optional>\n<body>\n```` normalises to the body. */
  lemma StripsLabelledFence(b: string, f: Fence)
    requires ValidFence(f) && NoBackticks(b)
    requires |b| > 0 && !IsSpace(b[0]) && !IsSpace(b[|b| - 1])
    ensures FenceStrip(f.stem + [f.optional] + "\n" + b + "\n```", f) == b
  {
    var s := f.stem + [f.optional] + "\n" + b + "\n```";
    assert s == f.stem + [f.optional] + "\n" + (b + "\n```");
    OpeningsOfLabelledFence(b, f);
    ClosingsSkipPlainPrefix(b, "\n```");
    ClosingFenceAtEnd();
    assert RemoveFences(s, f) == "" + b + "\n";
    StripPadded("", b, "\n");
  }


  lemma NoStemInBareFence(b: string, f: Fence)
    requires ValidFence(f) && NoBackticks(b)
    ensures !Contains("```\n" + b + "\n```", f.stem)
  {
    var s := "```\n" + b + "\n```";
    StemStartsWithTicks(f);
    assert s[3] == '\n' && s[4 + |b|] == '\n' && |s| == |b| + 8;
    forall i | 0 <= i <= |s| - |f.stem|
      ensures !OccursAt(s, f.stem, i)
    {
      if i <= 3 {
        MismatchAt(s, f.stem, i, 3 - i);
      } else {
        if i < 4 + |b| {
          assert s[i] == b[i - 4];
        }
        MismatchAt(s, f.stem, i, 0);
      }
    }
  }

  lemma BareOpeningMatch(b: string)
    requires |b| > 0 && !IsSpace(b[0])
    ensures CloseMatch("```\n" + b + "\n```") == Some(3)
  {
    var s := "```\n" + b + "\n```";
    assert StartsWith(s, Ticks) by { assert s[..3] == Ticks; }
    assert s[3..][0] == '\n' && s[3..][1] == b[0];
    assert SpaceRun(s[3..]) == 1 by {
      assert s[3..][1..][0] == b[0];
    }
    assert LastNewline(s, 3, 4) == Some(3);
  }

  lemma ClosingsOfBareFence(b: string)
    requires NoBackticks(b)
    requires |b| > 0 && !IsSpace(b[0])
    ensures StripClosings("```\n" + b + "\n```") == "\n" + b + "\n"
  {
    var s := "```\n" + b + "\n```";
    var body, tail := "\n" + b, "\n```";
    assert NoBackticks(body) by {
      forall i | 0 <= i < |body| ensures body[i] != '`' {
        if i > 0 { assert body[i] == b[i - 1]; }
      }
    }
    calc {
      StripClosings(s);
    == { BareOpeningMatch(b); ClosingsAfterMatch(s, 3); }
      StripClosings(s[3..]);
    == { assert s[3..] == body + tail; }
      StripClosings(body + tail);
    == { ClosingsSkipPlainPrefix(body, tail); }
      body + StripClosings(tail);
    == { ClosingFenceAtEnd(); }
      body + "\n";
    }
  }


  /** A closing fence matched at the head is dropped and the scan resumes
      after it. */
  lemma ClosingsAfterMatch(t: string, n: nat)
    requires CloseMatch(t) == Some(n)
    ensures StripClosings(t) == StripClosings(t[n..])
  {
  }

  /** A reply "```\n<body>\n```" (no language tag) normalises to the body:
      the opening ticks are removed by the closing-fence substitution, since
      `$` holds before the newline that follows them. */
  lemma StripsBareFence(b: string, f: Fence)
    requires ValidFence(f) && NoBackticks(b)
    requires |b| > 0 && !IsSpace(b[0]) && !IsSpace(b[|b| - 1])
    ensures FenceStrip("```\n" + b + "\n```", f) == b
  {
    var s := "```\n" + b + "\n```";
    NoStemInBareFence(b, f);
    OpeningsIdentity(s, f, true);
    ClosingsOfBareFence(b);
    assert RemoveFences(s, f) == "\n" + b + "\n";
    StripPadded("\n", b, "\n");
  }
}

=== FILE: lifecycle.dfy ===
/** How the engine and the dashboard meet over the two stores: what the
    reviewer sees after a run, what approval and reset do to the
    scheduler's choice, and how a one-off post's slug reads back as a
    title. */
module Lifecycle {

  import opened Common
  import opened Text
  import opened Model
  import opened Resolver
  import opened Pipeline
  import opened Dashboard

  /** With a JSON codec that reads back what it writes, the review page of
      a completed run shows exactly the run's final page, audit and social
      content. */
  lemma ReviewSeesLatest(cal: Calendar, today: Weekday, st: Stores, io: Replies, frag: Fragments,
                         h: Handlers, codec: Codec)
    requires RoundTrips(codec)
    requires RunScheduled(cal, today, st, io, frag, h, codec).status.Completed?
    ensures var run := RunScheduled(cal, today, st, io, frag, h, codec);
      var c := run.status;
      LoadDraft(run.drafts, c.post.slug, codec) == Some(Draft(ReadText(c.html), c.audit, c.social, c.post.slug))
    ensures var c := RunScheduled(cal, today, st, io, frag, h, codec).status;
      NoCarriageReturn(c.html) ==> LoadDraft(RunScheduled(cal, today, st, io, frag, h, codec).drafts, c.post.slug, codec).value.html == c.html
  {
    CompletedRun(cal, today, st, io, frag, h, codec);
    var run := RunScheduled(cal, today, st, io, frag, h, codec);
    var slug := run.status.post.slug;
    assert AuditName(slug) in ArtifactSet(slug) && SocialName(slug) in ArtifactSet(slug);
  }

  /** After `reset`, a post of the slug scheduled for the day is eligible
      again, whatever either store held before. */
  lemma ResetMakesSlotEligible(st: Stores, p: Post)
    ensures Eligible(p, p.day, Reset(st, p.slug).0)
  {
    assert HtmlName(p.slug) in ArtifactSet(p.slug);
  }

  /** Either approval puts the page in approved, so the scheduler never
      picks the post again; only the dashboard's removes the draft files,
      while the command-line approval leaves the draft in place. */
  lemma ApprovalPathsDiffer(st: Stores, slug: string, remote: Remote)
    requires HtmlName(slug) in st.drafts
    ensures var cli := ApproveAndDeploy(st, slug).0;
      var web := Dashboard.Approve(st, slug, "", remote).0;
      && cli.approved[HtmlName(slug)] == web.approved[HtmlName(slug)] == ReadText(st.drafts[HtmlName(slug)])
      && HtmlName(slug) in cli.drafts
      && HtmlName(slug) !in web.drafts
    ensures forall p: Post :: p.slug == slug ==>
      !Eligible(p, p.day, ApproveAndDeploy(st, slug).0) && !Eligible(p, p.day, Dashboard.Approve(st, slug, "", remote).0)
  {
    assert HtmlName(slug) in ArtifactSet(slug);
  }

  /** The slug of a one-off post reads back, in the listing, as the first
      50 characters of its topic in title case, provided the topic has no
      hyphen of its own and "blog-" does not reappear after the prefix. */
  lemma {:induction false} SlugTitleRoundTrip(topic: string)
    requires forall k :: 0 <= k < |topic| ==> topic[k] != '-'
    requires !Contains(CustomSlug(topic)[5..], "blog-")
    ensures ListingTitle(CustomSlug(topic)) == Title(Take(topic, SlugTopicLimit))
  {
    var d := Take(ReplaceChar(Lower(topic), ' ', '-'), SlugTopicLimit);
    var slug := CustomSlug(topic);
    assert slug == "blog-" + d;
    assert slug[5..] == d;
    assert slug[..5] == "blog-";
    ReplaceAllAbsent(d, "blog-", "");
    assert ReplaceAll(slug, "blog-", "") == d;
    var spaced := ReplaceChar(d, '-', ' ');
    var lowered := Take(Lower(topic), SlugTopicLimit);
    assert spaced == lowered;
    assert lowered == Lower(Take(topic, SlugTopicLimit));
    TitleOfLower(Take(topic, SlugTopicLimit));
  }
}

=== FILE: model.dfy ===
/** The entities the engine and the dashboard share: calendar posts, audit
    reports, social derivatives, the two file stores and their file names,
    and the JSON encoder/decoder the code calls but does not define. */
module Model {

  import opened Common
  import opened Text

  datatype Weekday = Monday | Tuesday | Wednesday | Thursday | Friday | Saturday | Sunday

  /** `datetime.strftime("%A").lower()`. */
  function DayName(d: Weekday): string {
    match d
    case Monday => "monday"
    case Tuesday => "tuesday"
    case Wednesday => "wednesday"
    case Thursday => "thursday"
    case Friday => "friday"
    case Saturday => "saturday"
    case Sunday => "sunday"
  }

  /** The keys of `day_map` in `get_next_scheduled_post`. */
  const PublishingDays: set<string> := {"monday", "wednesday", "friday"}

  /** A calendar post; only the fields the modelled code reads. */
  datatype Post = Post(slug: string, day: string, cluster: string, titleEn: string)

  /** A calendar cluster (category); read only through its key here. */
  datatype Cluster = Cluster(categoryTag: string, ctaService: string)

  datatype Calendar = Calendar(posts: seq<Post>, clusters: map<string, Cluster>)

  /** One entry of an audit list; each key may be missing. */
  datatype Issue = Issue(severity: Option<string>, issue: Option<string>, recommendation: Option<string>)

  /** An audit report as a JSON object: `None` is a missing key;
      `publishReady` is the truthiness of `publish_ready` (false when
      missing). */
  datatype Audit = Audit(
    grade: Option<string>,
    publishReady: bool,
    critical: Option<seq<Issue>>,
    warnings: Option<seq<Issue>>,
    suggestions: Option<seq<Issue>>,
    rawResponse: Option<string>,
    cluster: Option<string>)

  /** The `{}` the dashboard falls back to. */
  const EmptyAudit := Audit(None, false, None, None, None, None, None)

  /** `len(audit.get(key, []))`. */
  function Count(l: Option<seq<Issue>>): nat {
    match l
    case Some(xs) => |xs|
    case None => 0
  }

  /** The truthiness of `audit.get("critical_issues")`: present and non-empty. */
  predicate HasCritical(a: Audit) {
    Count(a.critical) > 0
  }

  /** The social-derivatives object, with its values flattened to text. */
  datatype Social = Social(fields: map<string, string>)

  const EmptySocial := Social(map[])

  /** `json.loads` and `json.dumps` for the two kinds of JSON file;
      `None` from a parser is a `JSONDecodeError`. */
  datatype Codec = Codec(
    parseAudit: string -> Option<Audit>,
    dumpAudit: Audit -> string,
    parseSocial: string -> Option<Social>,
    dumpSocial: Social -> string)

  /** Loading what was dumped gives back the same object, and a dump holds
      no carriage return (JSON escapes control characters inside strings),
      so reading the file back in text mode sees the dump unchanged. */
  ghost predicate RoundTrips(c: Codec) {
    && (forall a :: c.parseAudit(c.dumpAudit(a)) == Some(a))
    && (forall x :: c.parseSocial(c.dumpSocial(x)) == Some(x))
    && (forall a :: NoCarriageReturn(c.dumpAudit(a)))
    && (forall x :: NoCarriageReturn(c.dumpSocial(x)))
  }

  /** The drafts and approved directories, keyed by file name. */
  datatype Stores = Stores(drafts: map<string, string>, approved: map<string, string>)

  function HtmlName(slug: string): string { slug + ".html" }
  function AuditName(slug: string): string { slug + "_audit.json" }
  function SocialName(slug: string): string { slug + "_social.json" }
  function CardName(slug: string): string { slug + "_card.html" }
  function SitemapName(slug: string): string { slug + "_sitemap.xml" }

  /** The five files a post's pipeline run can leave in drafts, in the
      order the dashboard removes them. */
  function ArtifactNames(slug: string): seq<string> {
    [HtmlName(slug), AuditName(slug), SocialName(slug), CardName(slug), SitemapName(slug)]
  }

  function ArtifactSet(slug: string): set<string> {
    {HtmlName(slug), AuditName(slug), SocialName(slug), CardName(slug), SitemapName(slug)}
  }

  /** The five names are five different files. */
  lemma ArtifactNamesDistinct(slug: string)
    ensures var ns := ArtifactNames(slug); forall i, j :: 0 <= i < j < 5 ==> ns[i] != ns[j]
    ensures HtmlName(slug) != AuditName(slug) && HtmlName(slug) != SocialName(slug)
    ensures HtmlName(slug) != CardName(slug) && HtmlName(slug) != SitemapName(slug)
    ensures AuditName(slug) != SocialName(slug) && AuditName(slug) != CardName(slug)
    ensures AuditName(slug) != SitemapName(slug) && SocialName(slug) != CardName(slug)
    ensures SocialName(slug) != SitemapName(slug) && CardName(slug) != SitemapName(slug)
    ensures |ArtifactSet(slug)| == 5
  {
    var ns := ArtifactNames(slug);
    forall i, j | 0 <= i < j < 5
      ensures ns[i] != ns[j]
    {
      var n := |slug|;
      assert ns[i][n..] != ns[j][n..] by {
        assert ns[0][n..] == ".html" && ns[1][n..] == "_audit.json";
        assert ns[2][n..] == "_social.json" && ns[3][n..] == "_card.html";
        assert ns[4][n..] == "_sitemap.xml";
      }
    }
    assert ArtifactSet(slug) == {ns[0], ns[1], ns[2], ns[3], ns[4]};
  }

  /** Everything in `m` outside `names` is as in `m0`, key for key. */
  ghost predicate SameOutside(m0: map<string, string>, m: map<string, string>, names: set<string>) {
    forall k :: k !in names ==> (k in m <==> k in m0) && (k in m ==> m[k] == m0[k])
  }
}

=== FILE: notify.dfy ===
/** The draft notification of `format_draft_notification` (blog_engine.py):
    its subject and its plain-text body. The HTML body repeats the same
    facts inside a template and is not modelled. */
module Notify {

  import opened Common
  import opened Text
  import opened Model

  const Passed := "\U{2705}"
  const Caution := "\U{26A0}\U{FE0F}"
  const SubjectTag := " Blog Draft: "

  /** The most title characters a subject shows. */
  const TitleLimit := 60
  /** The most warnings the plain text lists, and the most characters of each. */
  const WarningLimit := 5
  const WarningWidth := 120

  datatype Notification = Notification(subject: string, plain: string)

  function Icon(a: Audit): string {
    if a.publishReady then Passed else Caution
  }

  function StatusText(a: Audit): string {
    if a.publishReady then Passed + " PASSED" else Caution + " NEEDS REVIEW"
  }

  /** The subject opens with the check mark exactly when the audit is
      publish-ready (with the warning sign otherwise), then shows the first
      60 characters of the English title. */
  function Subject(post: Post, audit: Audit): (s: string)
    ensures audit.publishReady <==> StartsWith(s, Passed)
    ensures !audit.publishReady ==> StartsWith(s, Caution)
    ensures StartsWith(s, Icon(audit) + SubjectTag)
    ensures var shown := s[|Icon(audit) + SubjectTag|..];
      StartsWith(post.titleEn, shown) && |shown| == Min(TitleLimit, |post.titleEn|)
  {
    var head := Icon(audit) + SubjectTag;
    var s := head + Take(post.titleEn, TitleLimit);
    assert s[..|head|] == head && s[|head|..] == Take(post.titleEn, TitleLimit);
    assert s[..1] == head[..1];
    assert Passed[0] != Caution[0];
    s
  }

  /** `w.get('issue', w.get('recommendation', ''))`: the issue text when
      the key is present, else the recommendation, else empty. */
  function IssueText(w: Issue): (t: string)
    ensures w.issue.Some? ==> t == w.issue.value
    ensures w.issue.None? && w.recommendation.Some? ==> t == w.recommendation.value
    ensures w.issue.None? && w.recommendation.None? ==> t == ""
  {
    w.issue.GetOr(w.recommendation.GetOr(""))
  }

  function TakeLines(ws: seq<Issue>): (ls: seq<string>)
    ensures |ls| == |ws|
    ensures forall i :: 0 <= i < |ls| ==>
      StartsWith(IssueText(ws[i]), ls[i]) && |ls[i]| == Min(WarningWidth, |IssueText(ws[i])|)
  {
    seq(|ws|, i requires 0 <= i < |ws| => Take(IssueText(ws[i]), WarningWidth))
  }

  /** The warning lines: one for each of the first five warnings (none when
      the list is missing), each the first 120 characters of its text. */
  function WarningLines(a: Audit): (ls: seq<string>)
    ensures |ls| == Min(WarningLimit, Count(a.warnings))
    ensures forall i :: 0 <= i < |ls| ==> |ls[i]| <= WarningWidth
    ensures a.warnings.Some? ==> forall i :: 0 <= i < |ls| ==>
      StartsWith(IssueText(a.warnings.value[i]), ls[i])
      && |ls[i]| == Min(WarningWidth, |IssueText(a.warnings.value[i])|)
  {
    match a.warnings
    case None => []
    case Some(ws) => TakeLines(if |ws| <= WarningLimit then ws else ws[..WarningLimit])
  }

  function WarningBlock(ls: seq<string>): string {
    if |ls| == 0 then "" else "\n" + Caution + " " + ls[0] + WarningBlock(ls[1..])
  }

  /** The line of the notification that shows the three counts; the counts
      can be read back off it. */
  function CountsLine(critical: nat, warnings: nat, suggestions: nat): (line: string)
    ensures StartsWith(line, "Critical: ")
    ensures ReadCounts(line) == Some((critical, warnings, suggestions))
  {
    CountsLineRoundTrip(critical, warnings, suggestions);
    "Critical: " + NatToString(critical) + " | Warnings: " + NatToString(warnings)
    + " | Suggestions: " + NatToString(suggestions)
  }

  /** Reads the three counts back off a counts line. */
  function ReadCounts(line: string): Option<(nat, nat, nat)> {
    if !StartsWith(line, "Critical: ") then None
    else
      var r1 := line[10..];
      var d1 := DigitPrefix(r1);
      var r2 := r1[|d1|..];
      if |d1| == 0 || !StartsWith(r2, " | Warnings: ") then None
      else
        var r3 := r2[13..];
        var d2 := DigitPrefix(r3);
        var r4 := r3[|d2|..];
        if |d2| == 0 || !StartsWith(r4, " | Suggestions: ") then None
        else
          var d3 := r4[16..];
          if |d3| == 0 || !AllDigits(d3) then None
          else Some((ParseNat(d1), ParseNat(d2), ParseNat(d3)))
  }

  lemma DigitsThen(n: nat, rest: string)
    requires |rest| > 0 && !IsDigit(rest[0])
    ensures DigitPrefix(NatToString(n) + rest) == NatToString(n)
    ensures (NatToString(n) + rest)[|NatToString(n)|..] == rest
  {
    DigitPrefixOfDigits(NatToString(n), rest);
  }

  /** The counts a rendered counts line shows are the counts it was made
      from. */
  lemma {:induction false} CountsLineRoundTrip(critical: nat, warnings: nat, suggestions: nat)
    ensures ReadCounts("Critical: " + NatToString(critical) + " | Warnings: " + NatToString(warnings)
                       + " | Suggestions: " + NatToString(suggestions)) == Some((critical, warnings, suggestions))
  {
    var n1, n2, n3 := NatToString(critical), NatToString(warnings), NatToString(suggestions);
    var p2, p3 := " | Warnings: ", " | Suggestions: ";
    var line := "Critical: " + n1 + p2 + n2 + p3 + n3;
    assert line == "Critical: " + (n1 + (p2 + (n2 + (p3 + n3))));
    assert StartsWith(line, "Critical: ");
    var r1 := line[10..];
    assert r1 == n1 + (p2 + (n2 + (p3 + n3)));
    DigitsThen(critical, p2 + (n2 + (p3 + n3)));
    var r2 := r1[|n1|..];
    assert r2 == p2 + (n2 + (p3 + n3));
    assert StartsWith(r2, p2);
    var r3 := r2[13..];
    assert r3 == n2 + (p3 + n3);
    DigitsThen(warnings, p3 + n3);
    var r4 := r3[|n2|..];
    assert r4 == p3 + n3;
    assert StartsWith(r4, p3);
    assert r4[16..] == n3;
    ParseNatRoundTrip(critical);
    ParseNatRoundTrip(warnings);
    ParseNatRoundTrip(suggestions);
  }

  /** `line` stands on a line of its own in `text`, starting at index `i`. */
  predicate LineAt(text: string, line: string, i: int) {
    0 < i && i + |line| < |text| && text[i - 1] == '\n' && text[i + |line|] == '\n'
    && text[i..i + |line|] == line
  }

  predicate HasLine(text: string, line: string) {
    exists i :: 0 <= i <= |text| && LineAt(text, line, i)
  }

  lemma LineBetween(a: string, line: string, b: string)
    requires |a| > 0 && a[|a| - 1] == '\n' && |b| > 0 && b[0] == '\n'
    ensures HasLine(a + line + b, line)
  {
    var t := a + line + b;
    assert t[|a| - 1] == a[|a| - 1];
    assert t[|a| + |line|] == b[0];
    assert t[|a|..|a| + |line|] == line;
    assert LineAt(t, line, |a|);
  }

  function ReviewUrl(dashboardUrl: string, slug: string): string {
    dashboardUrl + "/review/" + slug
  }

  function SocialUrl(dashboardUrl: string, slug: string): string {
    dashboardUrl + "/social/" + slug
  }

  function Header(post: Post, audit: Audit): (h: string)
    ensures |h| > 0 && h[|h| - 1] == '\n'
  {
    var body := StatusText(audit) + " \U{2014} Blog Draft Ready for Review\n\nTitle: " + post.titleEn
      + "\nCluster: " + post.cluster + "\nAudit Grade: " + audit.grade.GetOr("?");
    body + "\n"
  }

  function Footer(post: Post, dashboardUrl: string): (f: string)
    ensures |f| > 0 && f[0] == '\n'
  {
    var body := "\nReview & Edit: " + ReviewUrl(dashboardUrl, post.slug)
      + "\nSocial Content: " + SocialUrl(dashboardUrl, post.slug) + "\n";
    "\n" + body
  }

  /** A line placed between a text ending in a newline and one starting
      with a newline stands on its own, and the text ends as its last part. */
  lemma Layout(head: string, line: string, foot: string, rest: string)
    requires |head| > 0 && head[|head| - 1] == '\n' && |foot| > 0 && foot[0] == '\n'
    ensures HasLine(head + line + (foot + rest), line)
    ensures EndsWith(head + line + (foot + rest), rest)
  {
    LineBetween(head, line, foot + rest);
    var t := head + line + (foot + rest);
    assert t[|t| - |rest|..] == rest;
  }

  /** The notification for a new draft. Its plain text carries a counts
      line whose numbers are the lengths of the three audit lists (a missing
      list counts 0) and ends with the warning lines. */
  function FormatDraftNotification(post: Post, audit: Audit, dashboardUrl: string): (n: Notification)
    ensures n.subject == Subject(post, audit)
    ensures HasLine(n.plain, CountsLine(Count(audit.critical), Count(audit.warnings), Count(audit.suggestions)))
    ensures EndsWith(n.plain, WarningBlock(WarningLines(audit)))
  {
    var head := Header(post, audit);
    var counts := CountsLine(Count(audit.critical), Count(audit.warnings), Count(audit.suggestions));
    var foot := Footer(post, dashboardUrl);
    var warnings := WarningBlock(WarningLines(audit));
    Layout(head, counts, foot, warnings);
    Notification(Subject(post, audit), head + counts + (foot + warnings))
  }
}

=== FILE: passes.dfy ===
/** The reply handling of the four passes (blog_engine.py): what each pass
    makes of the model's reply text. The model call itself is outside the
    model; its reply, or the exception it raised, is an input. */
module Passes {

  import opened Common
  import opened Text
  import opened Fences
  import opened Model

  /** Pass 1 (`pass1_generate`): the draft page is the fence-stripped reply. */
  function GeneratedPage(reply: string): (html: string)
    ensures |html| > 0 ==> !IsSpace(html[0]) && !IsSpace(html[|html| - 1])
    ensures !Contains(reply, Ticks) ==> html == Strip(reply)
  {
    var html := FenceStrip(reply, HtmlFence);
    assert !Contains(reply, Ticks) ==> html == Strip(reply) by {
      if !Contains(reply, Ticks) {
        KnownFencesValid();
        NoFenceOnlyStrips(reply, HtmlFence);
      }
    }
    html
  }

  const ParseFailureIssue := "Audit response was not valid JSON \U{2014} manual review required"

  /** The longest prefix of a reply kept for a human when parsing fails. */
  const RawLimit := 2000

  /** The report `pass2_audit` substitutes for a reply that is not JSON:
      grade "UNKNOWN", not ready to publish, one critical issue saying the
      reply was not JSON, no warnings or suggestions, and the first 2000
      characters of the reply for a human to read. */
  function UnparsedAudit(raw: string): (a: Audit)
    ensures a.grade == Some("UNKNOWN") && !a.publishReady
    ensures a.critical.Some? && |a.critical.value| == 1 && HasCritical(a)
    ensures a.critical.value[0].severity == Some("CRITICAL") && a.critical.value[0].issue == Some(ParseFailureIssue)
    ensures a.warnings == Some([]) && a.suggestions == Some([])
    ensures a.rawResponse.Some? && StartsWith(raw, a.rawResponse.value)
    ensures |a.rawResponse.value| == Min(RawLimit, |raw|)
  {
    Audit(
      Some("UNKNOWN"),
      false,
      Some([Issue(Some("CRITICAL"), Some(ParseFailureIssue), None)]),
      Some([]),
      Some([]),
      Some(Take(raw, RawLimit)),
      None)
  }

  /** Pass 2 (`pass2_audit`): the reply with its fences removed is parsed
      after stripping; a reply that does not parse becomes a failing report
      that keeps at most 2000 characters of the fence-free text. */
  function ReadAudit(reply: string, codec: Codec): (a: Audit)
    ensures var raw := RemoveFences(reply, JsonFence);
      match codec.parseAudit(Strip(raw))
      case Some(parsed) => a == parsed
      case None =>
        && a.grade == Some("UNKNOWN") && !a.publishReady
        && Count(a.critical) == 1 && a.warnings == Some([]) && a.suggestions == Some([])
        && a.rawResponse.Some? && StartsWith(raw, a.rawResponse.value)
        && |a.rawResponse.value| == Min(RawLimit, |raw|)
  {
    var raw := RemoveFences(reply, JsonFence);
    match codec.parseAudit(Strip(raw))
    case Some(parsed) => parsed
    case None => UnparsedAudit(raw)
  }

  /** A reply that is not JSON always counts as having a critical issue,
      so it sends the draft through the fix pass. */
  lemma UnparsedAuditIsCritical(reply: string, codec: Codec)
    requires codec.parseAudit(Strip(RemoveFences(reply, JsonFence))).None?
    ensures HasCritical(ReadAudit(reply, codec))
  {
  }

  /** Pass 3 (`pass3_fix`): with no critical issue the page comes back as
      it was and the reply is never consulted; otherwise the page is the
      fence-stripped reply, or the call's exception. */
  function FixPass(html: string, audit: Audit, reply: Outcome<string>): (r: Outcome<string>)
    ensures !HasCritical(audit) ==> r == Ok(html)
    ensures HasCritical(audit) ==> (r.Raised? <==> reply.Raised?)
    ensures HasCritical(audit) && reply.Ok? ==>
      r.value == GeneratedPage(reply.value)
  {
    if !HasCritical(audit) then Ok(html)
    else
      match reply
      case Raised(e) => Raised(e)
      case Ok(text) => Ok(GeneratedPage(text))
  }

  const SocialParseError := "Could not parse social media content"

  /** Pass 4 (`pass4_social`): the parsed derivatives, or an object with an
      "error" message and at most 2000 characters of the fence-free reply. */
  function ReadSocial(reply: string, codec: Codec): (s: Social)
    ensures var raw := RemoveFences(reply, JsonFence);
      match codec.parseSocial(Strip(raw))
      case Some(parsed) => s == parsed
      case None =>
        && s.fields.Keys == {"error", "raw"} && s.fields["error"] == SocialParseError
        && StartsWith(raw, s.fields["raw"]) && |s.fields["raw"]| == Min(RawLimit, |raw|)
  {
    var raw := RemoveFences(reply, JsonFence);
    match codec.parseSocial(Strip(raw))
    case Some(parsed) => parsed
    case None => Social(map["error" := SocialParseError, "raw" := Take(raw, RawLimit)])
  }
}

=== FILE: pipeline.dfy ===
/** The blog engine's entry points (blog_engine.py): the scheduled
    four-pass pipeline, approval from the command line, and one-off
    generation from a custom topic. Each model reply, the e-mail outcome and
    the card and sitemap text are inputs; only the drafts store is written. */
module Pipeline {

  import opened Common
  import opened Text
  import opened Model
  import opened Resolver
  import opened Passes
  import opened Notify

  /** An outside call the pipeline makes, in the order it makes them. */
  datatype Call = GenerateCall | AuditCall | FixCall | SocialCall | EmailCall(note: Notification)

  /** Where a run stopped when an exception escaped it. */
  datatype Step = AtCluster | AtGenerate | AtAudit | AtFix | AtReaudit | AtSocial | AtWrite

  /** The model's reply (or exception) for each call, and whether the mail
      server accepted the notification. */
  datatype Replies = Replies(
    generate: Outcome<string>,
    audit: Outcome<string>,
    fix: Outcome<string>,
    reaudit: Outcome<string>,
    social: Outcome<string>,
    emailDelivered: bool)

  /** The card snippet and sitemap entry the templates produce for the post. */
  datatype Fragments = Fragments(card: string, sitemap: string)

  /** What the pipeline makes of each reply, and the notification it
      formats; the engine's own are `Standard` below. */
  datatype Handlers = Handlers(
    page: string -> string,
    audit: string -> Audit,
    social: string -> Social,
    notify: (Post, Audit) -> Notification)

  /** The engine's handlers: passes 1 and 3 strip the fences off the page,
      passes 2 and 4 read the JSON reply, and the notification is
      `format_draft_notification`. */
  function Standard(codec: Codec, dashboardUrl: string): Handlers {
    Handlers(
      reply => GeneratedPage(reply),
      reply => ReadAudit(reply, codec),
      reply => ReadSocial(reply, codec),
      (post, audit) => FormatDraftNotification(post, audit, dashboardUrl))
  }

  datatype RunStatus =
    | NothingScheduled
    | Aborted(step: Step)
    | Completed(post: Post, html: string, audit: Audit, social: Social, delivered: bool)

  datatype Run = Run(drafts: map<string, string>, calls: seq<Call>, status: RunStatus)

  /** No notification has been sent among `calls`. */
  predicate NoEmail(calls: seq<Call>) {
    forall k :: 0 <= k < |calls| ==> !calls[k].EmailCall?
  }

  /** The last steps, once the final audit is written: the social pass,
      the card and sitemap, and the notification, whose delivery failure is
      caught. */
  function Publish(post: Post, drafts: map<string, string>, calls: seq<Call>, html: string, audit: Audit,
                   io: Replies, frag: Fragments, h: Handlers, codec: Codec): (run: Run)
    requires NoEmail(calls)
    ensures SameOutside(drafts, run.drafts, {SocialName(post.slug), CardName(post.slug), SitemapName(post.slug)})
    ensures FixCall in run.calls <==> FixCall in calls
    ensures run.status.Completed? <==> io.social.Ok?
    ensures !run.status.Completed? ==> run.drafts == drafts && run.status == Aborted(AtSocial) && NoEmail(run.calls)
  {
    var slug := post.slug;
    ArtifactNamesDistinct(slug);
    match io.social
    case Raised(_) => Run(drafts, calls + [SocialCall], Aborted(AtSocial))
    case Ok(reply) =>
      var social := h.social(reply);
      var written := drafts[SocialName(slug) := codec.dumpSocial(social)]
                           [CardName(slug) := frag.card]
                           [SitemapName(slug) := frag.sitemap];
      Run(written, calls + [SocialCall, EmailCall(h.notify(post, audit))],
          Completed(post, html, audit, social, io.emailDelivered))
  }

  /** What a completed run has left in drafts and sent, given that its
      final page and audit are `c.html` and `c.audit`: all five files,
      each with its content, and the notification of the final audit. */
  predicate Persisted(run: Run, frag: Fragments, h: Handlers, codec: Codec)
    requires run.status.Completed?
  {
    var c := run.status;
    var slug := c.post.slug;
    && (forall n :: n in ArtifactSet(slug) ==> n in run.drafts)
    && run.drafts[HtmlName(slug)] == c.html
    && run.drafts[AuditName(slug)] == codec.dumpAudit(c.audit)
    && run.drafts[SocialName(slug)] == codec.dumpSocial(c.social)
    && run.drafts[CardName(slug)] == frag.card
    && run.drafts[SitemapName(slug)] == frag.sitemap
    && |run.calls| > 0 && run.calls[|run.calls| - 1] == EmailCall(h.notify(c.post, c.audit))
  }

  /** With the page and audit already written, the last steps complete
      the set of files and notify about that audit. */
  lemma PublishCompleted(post: Post, drafts: map<string, string>, calls: seq<Call>, html: string, audit: Audit,
                         io: Replies, frag: Fragments, h: Handlers, codec: Codec)
    requires NoEmail(calls) && io.social.Ok?
    requires HtmlName(post.slug) in drafts && drafts[HtmlName(post.slug)] == html
    requires AuditName(post.slug) in drafts && drafts[AuditName(post.slug)] == codec.dumpAudit(audit)
    ensures var run := Publish(post, drafts, calls, html, audit, io, frag, h, codec);
      && run.status == Completed(post, html, audit, h.social(io.social.value), io.emailDelivered)
      && Persisted(run, frag, h, codec)
  {
    ArtifactNamesDistinct(post.slug);
  }

  /** The fix branch: the fixed page replaces the draft, is audited again,
      and the new audit replaces the old one before the last steps. */
  function Repair(post: Post, drafts: map<string, string>, io: Replies, frag: Fragments,
                  h: Handlers, codec: Codec): (run: Run)
    ensures SameOutside(drafts, run.drafts, ArtifactSet(post.slug))
    ensures FixCall in run.calls
    ensures !run.status.Completed? ==> NoEmail(run.calls)
    ensures run.status.Completed? ==> io.fix.Ok? && io.reaudit.Ok? && io.social.Ok?
  {
    var slug := post.slug;
    var calls := [GenerateCall, AuditCall, FixCall];
    match io.fix
    case Raised(_) => Run(drafts, calls, Aborted(AtFix))
    case Ok(fixReply) =>
      var fixed := h.page(fixReply);
      var drafts' := drafts[HtmlName(slug) := fixed];
      match io.reaudit
      case Raised(_) => Run(drafts', calls + [AuditCall], Aborted(AtReaudit))
      case Ok(auditReply) =>
        var audit := h.audit(auditReply);
        assert FixCall == (calls + [AuditCall])[2];
        Publish(post, drafts'[AuditName(slug) := codec.dumpAudit(audit)], calls + [AuditCall],
                fixed, audit, io, frag, h, codec)
  }

  /** A completed fix branch ends with the fixed page and its re-audit. */
  lemma RepairCompleted(post: Post, drafts: map<string, string>, io: Replies, frag: Fragments,
                        h: Handlers, codec: Codec)
    requires Repair(post, drafts, io, frag, h, codec).status.Completed?
    ensures io.fix.Ok? && io.reaudit.Ok? && io.social.Ok?
    ensures var run := Repair(post, drafts, io, frag, h, codec);
      && run.status == Completed(post, h.page(io.fix.value), h.audit(io.reaudit.value),
                                 h.social(io.social.value), io.emailDelivered)
      && Persisted(run, frag, h, codec)
  {
    var slug := post.slug;
    var fixed := h.page(io.fix.value);
    var audit := h.audit(io.reaudit.value);
    var drafts' := drafts[HtmlName(slug) := fixed][AuditName(slug) := codec.dumpAudit(audit)];
    ArtifactNamesDistinct(slug);
    PublishCompleted(post, drafts', [GenerateCall, AuditCall, FixCall] + [AuditCall], fixed, audit,
                     io, frag, h, codec);
  }

  /** The steps after the first audit has been written: the fix pass and
      the re-audit of the fixed page when the audit has a critical issue,
      then the rest. */
  function Finish(post: Post, drafts: map<string, string>, html: string, audit: Audit,
                  io: Replies, frag: Fragments, h: Handlers, codec: Codec): (run: Run)
    ensures SameOutside(drafts, run.drafts, ArtifactSet(post.slug))
    ensures FixCall in run.calls <==> HasCritical(audit)
    ensures !run.status.Completed? ==> NoEmail(run.calls)
  {
    if HasCritical(audit) then Repair(post, drafts, io, frag, h, codec)
    else
      ArtifactNamesDistinct(post.slug);
      Publish(post, drafts, [GenerateCall, AuditCall], html, audit, io, frag, h, codec)
  }

  /** A completed run after the first audit ends with the fixed page and
      its re-audit when that audit had a critical issue, and with the
      generated page and that audit otherwise. */
  lemma FinishCompleted(post: Post, drafts: map<string, string>, html: string, audit: Audit,
                        io: Replies, frag: Fragments, h: Handlers, codec: Codec)
    requires HtmlName(post.slug) in drafts && drafts[HtmlName(post.slug)] == html
    requires AuditName(post.slug) in drafts && drafts[AuditName(post.slug)] == codec.dumpAudit(audit)
    requires Finish(post, drafts, html, audit, io, frag, h, codec).status.Completed?
    ensures var run := Finish(post, drafts, html, audit, io, frag, h, codec);
      var c := run.status;
      && io.social.Ok? && c.post == post && c.social == h.social(io.social.value)
      && c.delivered == io.emailDelivered
      && (if HasCritical(audit)
          then io.fix.Ok? && io.reaudit.Ok? && c.html == h.page(io.fix.value)
               && c.audit == h.audit(io.reaudit.value)
          else c.html == html && c.audit == audit)
      && Persisted(run, frag, h, codec)
  {
    if HasCritical(audit) {
      RepairCompleted(post, drafts, io, frag, h, codec);
    } else {
      PublishCompleted(post, drafts, [GenerateCall, AuditCall], html, audit, io, frag, h, codec);
    }
  }

  /** `run_scheduled_pipeline`, with the engine's handlers given as `h`
      (`Standard(codec, dashboardUrl)` in the engine itself). */
  function RunScheduled(cal: Calendar, today: Weekday, st: Stores, io: Replies, frag: Fragments,
                        h: Handlers, codec: Codec): (run: Run)
    ensures NextScheduledPost(cal, today, st).None? <==> run.status == NothingScheduled
    ensures run.status == NothingScheduled ==> run.drafts == st.drafts && run.calls == []
    ensures run.status.Completed? ==> Some(run.status.post) == NextScheduledPost(cal, today, st)
    ensures match NextScheduledPost(cal, today, st)
      case None => true
      case Some(p) => SameOutside(st.drafts, run.drafts, ArtifactSet(p.slug))
    ensures !run.status.Completed? ==> NoEmail(run.calls)
  {
    match NextScheduledPost(cal, today, st)
    case None => Run(st.drafts, [], NothingScheduled)
    case Some(post) =>
      var slug := post.slug;
      if post.cluster !in cal.clusters then
        Run(st.drafts, [], Aborted(AtCluster))
      else if io.generate.Raised? then
        Run(st.drafts, [GenerateCall], Aborted(AtGenerate))
      else
        var html := h.page(io.generate.value);
        var drafts := st.drafts[HtmlName(slug) := html];
        if io.audit.Raised? then
          Run(drafts, [GenerateCall, AuditCall], Aborted(AtAudit))
        else
          var audit := h.audit(io.audit.value);
          ArtifactNamesDistinct(slug);
          Finish(post, drafts[AuditName(slug) := codec.dumpAudit(audit)], html, audit, io, frag, h, codec)
  }

  /** A run that reaches the audit makes the fix call exactly when that
      audit has a critical issue; a clean audit never leads to a fix. */
  lemma FixGating(cal: Calendar, today: Weekday, st: Stores, io: Replies, frag: Fragments,
                  h: Handlers, codec: Codec)
    requires NextScheduledPost(cal, today, st).Some?
    requires NextScheduledPost(cal, today, st).value.cluster in cal.clusters
    requires io.generate.Ok? && io.audit.Ok?
    ensures var run := RunScheduled(cal, today, st, io, frag, h, codec);
      FixCall in run.calls <==> HasCritical(h.audit(io.audit.value))
  {
  }

  /** A completed run leaves its final page, audit and social content in
      drafts, under the post's names, together with the card and sitemap;
      the final audit is the re-audit of the fixed page when the first audit
      had a critical issue and the first audit otherwise; the notification
      reports that final audit. */
  lemma CompletedRun(cal: Calendar, today: Weekday, st: Stores, io: Replies, frag: Fragments,
                     h: Handlers, codec: Codec)
    requires RunScheduled(cal, today, st, io, frag, h, codec).status.Completed?
    ensures io.generate.Ok? && io.audit.Ok? && io.social.Ok?
    ensures var run := RunScheduled(cal, today, st, io, frag, h, codec);
      var c := run.status;
      && c.social == h.social(io.social.value)
      && c.delivered == io.emailDelivered
      && (if HasCritical(h.audit(io.audit.value))
          then io.fix.Ok? && io.reaudit.Ok? && c.html == h.page(io.fix.value)
               && c.audit == h.audit(io.reaudit.value)
          else c.html == h.page(io.generate.value) && c.audit == h.audit(io.audit.value))
      && Persisted(run, frag, h, codec)
  {
    var post := NextScheduledPost(cal, today, st).value;
    var html := h.page(io.generate.value);
    var audit := h.audit(io.audit.value);
    var drafts := st.drafts[HtmlName(post.slug) := html][AuditName(post.slug) := codec.dumpAudit(audit)];
    ArtifactNamesDistinct(post.slug);
    FinishCompleted(post, drafts, html, audit, io, frag, h, codec);
  }

  /** The mail server's answer changes nothing but the recorded outcome:
      a failed notification is caught and the drafts stay written. */
  lemma EmailOutcomeIrrelevant(cal: Calendar, today: Weekday, st: Stores, io: Replies, frag: Fragments,
                               h: Handlers, codec: Codec)
    ensures var r1 := RunScheduled(cal, today, st, io.(emailDelivered := true), frag, h, codec);
      var r2 := RunScheduled(cal, today, st, io.(emailDelivered := false), frag, h, codec);
      && r1.drafts == r2.drafts && r1.calls == r2.calls
      && r1.status.Completed? == r2.status.Completed?
  {
  }

  /** An exception stops the run where it happened and keeps what was
      written before it: nothing when the cluster is unknown or generation
      fails, the page alone when the first audit fails, and no
      notification in any case. */
  lemma AbortKeepsEarlierWrites(cal: Calendar, today: Weekday, st: Stores, io: Replies, frag: Fragments,
                                h: Handlers, codec: Codec)
    requires NextScheduledPost(cal, today, st).Some?
    ensures var post := NextScheduledPost(cal, today, st).value;
      var run := RunScheduled(cal, today, st, io, frag, h, codec);
      && (post.cluster !in cal.clusters ==> run.drafts == st.drafts && run.status == Aborted(AtCluster))
      && (post.cluster in cal.clusters && io.generate.Raised? ==>
            run.drafts == st.drafts && run.status == Aborted(AtGenerate))
      && (post.cluster in cal.clusters && io.generate.Ok? && io.audit.Raised? ==>
            run.drafts == st.drafts[HtmlName(post.slug) := h.page(io.generate.value)]
            && run.status == Aborted(AtAudit))
  {
  }

  /** An exception after the first audit keeps what was written before it.
      When the fix pass raises, the generated page and its audit stay. When
      the re-audit raises, the fixed page is on disk next to the audit of
      the page it replaced. When the social pass raises, the final page and
      audit stay and no social, card or sitemap file is written. No
      notification is sent in any case. */
  lemma LateAbortsKeepEarlierWrites(cal: Calendar, today: Weekday, st: Stores, io: Replies, frag: Fragments,
                                    h: Handlers, codec: Codec)
    requires NextScheduledPost(cal, today, st).Some?
    requires NextScheduledPost(cal, today, st).value.cluster in cal.clusters
    requires io.generate.Ok? && io.audit.Ok?
    ensures var slug := NextScheduledPost(cal, today, st).value.slug;
      var first := h.audit(io.audit.value);
      var written := st.drafts[HtmlName(slug) := h.page(io.generate.value)][AuditName(slug) := codec.dumpAudit(first)];
      var run := RunScheduled(cal, today, st, io, frag, h, codec);
      && (HasCritical(first) && io.fix.Raised? ==>
            run.drafts == written && run.status == Aborted(AtFix))
      && (HasCritical(first) && io.fix.Ok? && io.reaudit.Raised? ==>
            && run.drafts == written[HtmlName(slug) := h.page(io.fix.value)]
            && run.drafts[HtmlName(slug)] == h.page(io.fix.value)
            && run.drafts[AuditName(slug)] == codec.dumpAudit(first)
            && run.status == Aborted(AtReaudit))
      && (HasCritical(first) && io.fix.Ok? && io.reaudit.Ok? && io.social.Raised? ==>
            && run.drafts == written[HtmlName(slug) := h.page(io.fix.value)]
                                    [AuditName(slug) := codec.dumpAudit(h.audit(io.reaudit.value))]
            && run.status == Aborted(AtSocial))
      && (!HasCritical(first) && io.social.Raised? ==>
            run.drafts == written && run.status == Aborted(AtSocial))
      && (!run.status.Completed? ==> NoEmail(run.calls))
  {
    ArtifactNamesDistinct(NextScheduledPost(cal, today, st).value.slug);
  }

  /** In the engine itself, the page on disk after the fix step is what
      `pass3_fix` returns: the generated page when the first audit has no
      critical issue, the normalised fix reply otherwise, and the run stops
      there exactly when `pass3_fix` raises. */
  lemma RepairIsFixPass(cal: Calendar, today: Weekday, st: Stores, io: Replies, frag: Fragments,
                        codec: Codec, dashboardUrl: string)
    requires NextScheduledPost(cal, today, st).Some?
    requires NextScheduledPost(cal, today, st).value.cluster in cal.clusters
    requires io.generate.Ok? && io.audit.Ok?
    ensures var slug := NextScheduledPost(cal, today, st).value.slug;
      var run := RunScheduled(cal, today, st, io, frag, Standard(codec, dashboardUrl), codec);
      var fixed := FixPass(GeneratedPage(io.generate.value), ReadAudit(io.audit.value, codec), io.fix);
      && (fixed.Raised? <==> run.status == Aborted(AtFix))
      && (fixed.Ok? ==> HtmlName(slug) in run.drafts && run.drafts[HtmlName(slug)] == fixed.value)
  {
    var h := Standard(codec, dashboardUrl);
    PageAfterFixStep(cal, today, st, io, frag, h, codec);
    assert h.page(io.generate.value) == GeneratedPage(io.generate.value);
    assert h.audit(io.audit.value) == ReadAudit(io.audit.value, codec);
    assert io.fix.Ok? ==> h.page(io.fix.value) == GeneratedPage(io.fix.value);
  }

  /** The page on disk after the fix step, for any handlers: the generated
      page after a clean audit, the fixed page after a critical one. */
  lemma PageAfterFixStep(cal: Calendar, today: Weekday, st: Stores, io: Replies, frag: Fragments,
                         h: Handlers, codec: Codec)
    requires NextScheduledPost(cal, today, st).Some?
    requires NextScheduledPost(cal, today, st).value.cluster in cal.clusters
    requires io.generate.Ok? && io.audit.Ok?
    ensures var slug := NextScheduledPost(cal, today, st).value.slug;
      var first := h.audit(io.audit.value);
      var run := RunScheduled(cal, today, st, io, frag, h, codec);
      && (run.status == Aborted(AtFix) <==> HasCritical(first) && io.fix.Raised?)
      && HtmlName(slug) in run.drafts
      && (!HasCritical(first) ==> run.drafts[HtmlName(slug)] == h.page(io.generate.value))
      && (HasCritical(first) && io.fix.Ok? ==> run.drafts[HtmlName(slug)] == h.page(io.fix.value))
  {
    ArtifactNamesDistinct(NextScheduledPost(cal, today, st).value.slug);
  }

  /** Once a run has written the page, the resolver will not pick that post
      again: a second run on the same day moves on to another post. */
  lemma NeverRegenerates(cal: Calendar, today: Weekday, st: Stores, io: Replies, frag: Fragments,
                         h: Handlers, codec: Codec)
    requires NextScheduledPost(cal, today, st).Some?
    requires HtmlName(NextScheduledPost(cal, today, st).value.slug) in RunScheduled(cal, today, st, io, frag, h, codec).drafts
    ensures var post := NextScheduledPost(cal, today, st).value;
      var run := RunScheduled(cal, today, st, io, frag, h, codec);
      var next := NextScheduledPost(cal, today, Stores(run.drafts, st.approved));
      next.Some? ==> next.value.slug != post.slug
  {
    var post := NextScheduledPost(cal, today, st).value;
    var run := RunScheduled(cal, today, st, io, frag, h, codec);
    var st' := Stores(run.drafts, st.approved);
    var next := NextScheduledPost(cal, today, st');
    if next.Some? {
      var i :| 0 <= i < |cal.posts| && cal.posts[i] == next.value && Eligible(cal.posts[i], DayName(today), st');
      assert HtmlName(next.value.slug) !in run.drafts;
    }
  }

  /** A run completes exactly when a post is due, its cluster is known,
      generation, the first audit and the social pass return, and, when
      that audit has a critical issue, the fix and the re-audit return too. */
  lemma CompletesIff(cal: Calendar, today: Weekday, st: Stores, io: Replies, frag: Fragments,
                     h: Handlers, codec: Codec)
    ensures RunScheduled(cal, today, st, io, frag, h, codec).status.Completed? <==>
      && NextScheduledPost(cal, today, st).Some?
      && NextScheduledPost(cal, today, st).value.cluster in cal.clusters
      && io.generate.Ok? && io.audit.Ok? && io.social.Ok?
      && (HasCritical(h.audit(io.audit.value)) ==> io.fix.Ok? && io.reaudit.Ok?)
  {
    if RunScheduled(cal, today, st, io, frag, h, codec).status.Completed? {
      CompletedRun(cal, today, st, io, frag, h, codec);
    }
  }

  /** In the engine, a run in which every reply it needs arrives ends with
      a notification that carries the counts of the final audit, the one
      left in drafts. */
  lemma NotifiesFinalAudit(cal: Calendar, today: Weekday, st: Stores, io: Replies, frag: Fragments,
                           codec: Codec, dashboardUrl: string)
    requires NextScheduledPost(cal, today, st).Some? && NextScheduledPost(cal, today, st).value.cluster in cal.clusters
    requires io.generate.Ok? && io.audit.Ok? && io.social.Ok?
    requires HasCritical(ReadAudit(io.audit.value, codec)) ==> io.fix.Ok? && io.reaudit.Ok?
    ensures var run := RunScheduled(cal, today, st, io, frag, Standard(codec, dashboardUrl), codec);
      && run.status.Completed?
      && var a := run.status.audit;
      && AuditName(run.status.post.slug) in run.drafts
      && run.drafts[AuditName(run.status.post.slug)] == codec.dumpAudit(a)
      && |run.calls| > 0 && run.calls[|run.calls| - 1].EmailCall?
      && HasLine(run.calls[|run.calls| - 1].note.plain, CountsLine(Count(a.critical), Count(a.warnings), Count(a.suggestions)))
  {
    var h := Standard(codec, dashboardUrl);
    assert h.audit(io.audit.value) == ReadAudit(io.audit.value, codec);
    CompletesIff(cal, today, st, io, frag, h, codec);
    CompletedRun(cal, today, st, io, frag, h, codec);
    var run := RunScheduled(cal, today, st, io, frag, h, codec);
    ArtifactNamesDistinct(run.status.post.slug);
    assert h.notify(run.status.post, run.status.audit) == FormatDraftNotification(run.status.post, run.status.audit, dashboardUrl);
  }


  /** `approve_and_deploy`: the draft page is copied into approved (the
      draft stays where it is); without a draft nothing changes. The
      confirmation mail's outcome is swallowed and does not matter. */
  function ApproveAndDeploy(st: Stores, slug: string): (r: (Stores, bool))
    ensures r.1 <==> HtmlName(slug) in st.drafts
    ensures r.0.drafts == st.drafts
    ensures !r.1 ==> r.0 == st
    ensures r.1 ==> HtmlName(slug) in r.0.approved && r.0.approved[HtmlName(slug)] == ReadText(st.drafts[HtmlName(slug)])
    ensures SameOutside(st.approved, r.0.approved, {HtmlName(slug)})
  {
    var name := HtmlName(slug);
    if name !in st.drafts then (st, false)
    else (Stores(st.drafts, st.approved[name := ReadText(st.drafts[name])]), true)
  }

  /** The most slug characters taken from a custom topic. */
  const SlugTopicLimit := 50

  /** The slug of a one-off post: "blog-" and the first 50 characters of the
      lower-cased topic with its spaces turned into hyphens. */
  function CustomSlug(topic: string): (slug: string)
    ensures StartsWith(slug, "blog-")
    ensures |slug| == 5 + Min(SlugTopicLimit, |topic|)
    ensures forall k :: 5 <= k < |slug| ==> slug[k] != ' ' && !IsUpper(slug[k])
    ensures forall k :: 5 <= k < |slug| ==> slug[k] == (if topic[k - 5] == ' ' then '-' else LowerChar(topic[k - 5]))
  {
    "blog-" + Take(ReplaceChar(Lower(topic), ' ', '-'), SlugTopicLimit)
  }

  /** The cluster every one-off post is filed under. */
  const CustomCluster := "4_tax_strategy"

  datatype CustomRun = NoTopic | CustomFailed(step: Step) | CustomSaved(slug: string, drafts: map<string, string>)

  /** A slug names a plain file of the drafts directory: no path separator
      (the directory has no sub-directories, so "a/b.html" cannot be
      opened) and no NUL, which the operating system refuses. */
  predicate Writable(slug: string) {
    forall k :: 0 <= k < |slug| ==> slug[k] != '/' && slug[k] != '\0'
  }

  /** A one-off post's slug is a plain file name exactly when the part of
      the topic it keeps has no '/' and no NUL. */
  lemma CustomSlugWritable(topic: string)
    ensures Writable(CustomSlug(topic)) <==>
      forall k :: 0 <= k < Min(SlugTopicLimit, |topic|) ==> topic[k] != '/' && topic[k] != '\0'
  {
  }

  /** `--mode generate`: a missing or empty topic writes nothing; otherwise
      the fence-stripped page for the one-off post is written as its draft,
      replacing any earlier draft of the same slug. A calendar without the
      tax-strategy cluster, a failed call, or a slug that is not a plain
      file name (a topic with '/' or NUL) writes nothing. */
  function GenerateCustom(topic: Option<string>, cal: Calendar, drafts: map<string, string>,
                          reply: Outcome<string>): (r: CustomRun)
    ensures (topic.None? || topic.value == "") <==> r.NoTopic?
    ensures r.CustomFailed? <==>
      topic.Some? && topic.value != "" && (CustomCluster !in cal.clusters || reply.Raised? || !Writable(CustomSlug(topic.value)))
    ensures r.CustomFailed? && r.step == AtWrite <==>
      topic.Some? && topic.value != "" && CustomCluster in cal.clusters && reply.Ok? && !Writable(CustomSlug(topic.value))
    ensures r.CustomSaved? ==>
      && r.slug == CustomSlug(topic.value)
      && Writable(r.slug)
      && r.drafts == drafts[HtmlName(r.slug) := GeneratedPage(reply.value)]
  {
    match topic
    case None => NoTopic
    case Some(t) =>
      if t == "" then NoTopic
      else if CustomCluster !in cal.clusters then CustomFailed(AtCluster)
      else match reply
        case Raised(_) => CustomFailed(AtGenerate)
        case Ok(text) =>
          var slug := CustomSlug(t);
          if !Writable(slug) then CustomFailed(AtWrite)
          else CustomSaved(slug, drafts[HtmlName(slug) := GeneratedPage(text)])
  }
}

=== FILE: resolver.dfy ===
/** The slot resolver `get_next_scheduled_post` (blog_engine.py): on a
    publishing day, the first calendar post for that day whose page exists
    neither in drafts nor in approved. */
module Resolver {

  import opened Common
  import opened Model

  /** The post is scheduled for `day` and no page for it has been written. */
  predicate Eligible(p: Post, day: string, st: Stores) {
    p.day == day && HtmlName(p.slug) !in st.drafts && HtmlName(p.slug) !in st.approved
  }

  /** Index of the first eligible post at or after `i`. */
  function FirstEligibleFrom(posts: seq<Post>, day: string, st: Stores, i: nat): (r: Option<nat>)
    requires i <= |posts|
    ensures r.Some? ==> i <= r.value < |posts| && Eligible(posts[r.value], day, st)
    ensures r.Some? ==> forall j :: i <= j < r.value ==> !Eligible(posts[j], day, st)
    ensures r.None? ==> forall j :: i <= j < |posts| ==> !Eligible(posts[j], day, st)
    decreases |posts| - i
  {
    if i == |posts| then None
    else if Eligible(posts[i], day, st) then Some(i)
    else FirstEligibleFrom(posts, day, st, i + 1)
  }

  /** The post to generate today, if any: nothing off the publishing days;
      otherwise the first not-yet-generated post for today in calendar
      order, and nothing exactly when there is no such post. */
  function NextScheduledPost(cal: Calendar, today: Weekday, st: Stores): (r: Option<Post>)
    ensures DayName(today) !in PublishingDays ==> r.None?
    ensures r.Some? ==>
      exists i :: 0 <= i < |cal.posts| && cal.posts[i] == r.value
        && Eligible(cal.posts[i], DayName(today), st)
        && forall j :: 0 <= j < i ==> !Eligible(cal.posts[j], DayName(today), st)
    ensures DayName(today) in PublishingDays && r.None? ==>
      forall j :: 0 <= j < |cal.posts| ==> !Eligible(cal.posts[j], DayName(today), st)
  {
    var day := DayName(today);
    if day !in PublishingDays then None
    else
      match FirstEligibleFrom(cal.posts, day, st, 0)
      case Some(i) => Some(cal.posts[i])
      case None => None
  }
}

=== FILE: text.dfy ===
/** The slice of Python's `str` behaviour the engine relies on, restricted to
    ASCII: whitespace and `strip()`, slicing `s[:n]`, `replace`, `lower()`,
    `title()`, code-point ordering, and decimal rendering of counts. */
module Text {

  import opened Common

  // ---------------------------------------------------------------------
  // Prefixes, suffixes, substrings
  // ---------------------------------------------------------------------

  predicate StartsWith(s: string, prefix: string) {
    |prefix| <= |s| && s[..|prefix|] == prefix
  }

  predicate EndsWith(s: string, suffix: string) {
    |suffix| <= |s| && s[|s| - |suffix|..] == suffix
  }

  /** `pat` occurs in `s` starting at index `i`. */
  predicate OccursAt(s: string, pat: string, i: int) {
    0 <= i && i + |pat| <= |s| && s[i..i + |pat|] == pat
  }

  /** Python's `pat in s`. */
  predicate Contains(s: string, pat: string) {
    exists i :: 0 <= i <= |s| - |pat| && OccursAt(s, pat, i)
  }

  /** Python's `s[:n]` for a non-negative `n`. */
  function Take(s: string, n: nat): (r: string)
    ensures |r| == Min(n, |s|)
    ensures StartsWith(s, r)
  {
    if |s| <= n then s else s[..n]
  }

  lemma ContainsTail(s: string, pat: string)
    requires |s| > 0 && Contains(s[1..], pat)
    ensures Contains(s, pat)
  {
    var t := s[1..];
    var i :| 0 <= i <= |t| - |pat| && OccursAt(t, pat, i);
    assert t[i..i + |pat|] == pat;
    assert s[i + 1..i + 1 + |pat|] == t[i..i + |pat|];
    assert OccursAt(s, pat, i + 1);
  }

  /** `a` is `b` with some characters deleted. */
  predicate SubseqOf(a: string, b: string)
    decreases |b|
  {
    || |a| == 0
    || (|b| > 0 && ((a[0] == b[0] && SubseqOf(a[1..], b[1..])) || SubseqOf(a, b[1..])))
  }

  /** Deleting from a suffix is deleting from the whole. */
  lemma {:induction false} SubseqOfSuffix(a: string, b: string, n: nat)
    requires n <= |b| && SubseqOf(a, b[n..])
    ensures SubseqOf(a, b)
    decreases n
  {
    if n > 0 && |a| > 0 {
      assert b[1..][n - 1..] == b[n..];
      SubseqOfSuffix(a, b[1..], n - 1);
    }
  }

  /** A prefix is a subsequence. */
  lemma {:induction false} PrefixIsSubseq(c: string, n: nat)
    requires n <= |c|
    ensures SubseqOf(c[..n], c)
    decreases n
  {
    if n > 0 {
      assert c[..n][1..] == c[1..][..n - 1];
      PrefixIsSubseq(c[1..], n - 1);
    }
  }

  /** Cutting both ends only deletes characters. */
  lemma SliceIsSubseq(b: string, lo: nat, hi: nat, r: string)
    requires lo <= hi <= |b| && r == b[lo..hi]
    ensures SubseqOf(r, b)
  {
    PrefixIsSubseq(b[lo..], hi - lo);
    assert b[lo..][..hi - lo] == r;
    SubseqOfSuffix(r, b, lo);
  }

  /** Two rounds of deletion are one. */
  lemma {:induction false} SubseqOfTransitive(a: string, b: string, c: string)
    requires SubseqOf(a, b) && SubseqOf(b, c)
    ensures SubseqOf(a, c)
    decreases |c|
  {
    if |a| > 0 {
      if SubseqOf(b, c[1..]) {
        SubseqOfTransitive(a, b, c[1..]);
      } else if a[0] == b[0] && SubseqOf(a[1..], b[1..]) {
        SubseqOfTransitive(a[1..], b[1..], c[1..]);
      } else {
        SubseqOfTransitive(a, b[1..], c[1..]);
      }
    }
  }

  // ---------------------------------------------------------------------
  // Whitespace and strip()
  // ---------------------------------------------------------------------

  /** `str.isspace()` (and the regex class `\s`) on ASCII characters. */
  predicate IsSpace(c: char) {
    c == ' ' || c == '\t' || c == '\n' || c == '\r' || c == '\U{0B}' || c == '\U{0C}'
    || ('\U{1C}' <= c <= '\U{1F}')
  }

  predicate AllSpace(s: string) {
    forall i :: 0 <= i < |s| ==> IsSpace(s[i])
  }

  /** `r` is `s` with the whitespace-only prefix `s[..lo]` and a
      whitespace-only suffix removed. */
  predicate StrippedAt(s: string, r: string, lo: int) {
    0 <= lo && lo + |r| <= |s| && r == s[lo..lo + |r|]
    && AllSpace(s[..lo]) && AllSpace(s[lo + |r|..])
  }

  /** Python's `s.lstrip()`. */
  function TrimStart(s: string): (r: string)
    ensures |r| <= |s| && r == s[|s| - |r|..]
    ensures AllSpace(s[..|s| - |r|])
    ensures |r| > 0 ==> !IsSpace(r[0])
    decreases |s|
  {
    if |s| > 0 && IsSpace(s[0]) then TrimStart(s[1..]) else s
  }

  /** Python's `s.rstrip()`. */
  function TrimEnd(s: string): (r: string)
    ensures |r| <= |s| && r == s[..|r|]
    ensures AllSpace(s[|r|..])
    ensures |r| > 0 ==> !IsSpace(r[|r| - 1])
    decreases |s|
  {
    if |s| > 0 && IsSpace(s[|s| - 1]) then TrimEnd(s[..|s| - 1]) else s
  }

  /** Python's `s.strip()`: the result keeps no whitespace at either end and
      is what is left of `s` after cutting whitespace-only ends. */
  function Strip(s: string): (r: string)
    ensures |r| > 0 ==> !IsSpace(r[0]) && !IsSpace(r[|r| - 1])
    ensures exists lo :: StrippedAt(s, r, lo)
  {
    var t := TrimStart(s);
    var r := TrimEnd(t);
    var lo := |s| - |t|;
    assert r == s[lo..lo + |r|] by { assert s[lo..][..|r|] == s[lo..lo + |r|]; }
    assert AllSpace(s[lo + |r|..]) by { assert t[|r|..] == s[lo + |r|..]; }
    assert StrippedAt(s, r, lo);
    r
  }

  /** `strip()` only deletes characters. */
  lemma StripIsSubseq(s: string)
    ensures SubseqOf(Strip(s), s)
  {
    var r := Strip(s);
    var lo :| StrippedAt(s, r, lo);
    SliceIsSubseq(s, lo, lo + |r|, r);
  }

  lemma {:induction false} TrimStartSkipsSpace(w: string, b: string)
    requires AllSpace(w)
    requires |b| > 0 && !IsSpace(b[0])
    ensures TrimStart(w + b) == b
    decreases |w|
  {
    if |w| > 0 {
      assert (w + b)[1..] == w[1..] + b;
      TrimStartSkipsSpace(w[1..], b);
    } else {
      assert w + b == b;
    }
  }

  lemma {:induction false} TrimEndSkipsSpace(b: string, w: string)
    requires AllSpace(w)
    requires |b| > 0 && !IsSpace(b[|b| - 1])
    ensures TrimEnd(b + w) == b
    decreases |w|
  {
    if |w| > 0 {
      assert (b + w)[..|b + w| - 1] == b + w[..|w| - 1];
      TrimEndSkipsSpace(b, w[..|w| - 1]);
    } else {
      assert b + w == b;
    }
  }

  /** Stripping a text padded with whitespace on both sides gives back the
      text, provided the text itself has non-blank ends. */
  lemma StripPadded(w1: string, b: string, w2: string)
    requires AllSpace(w1) && AllSpace(w2)
    requires |b| > 0 && !IsSpace(b[0]) && !IsSpace(b[|b| - 1])
    ensures Strip(w1 + b + w2) == b
  {
    assert w1 + b + w2 == w1 + (b + w2);
    assert (b + w2)[0] == b[0];
    TrimStartSkipsSpace(w1, b + w2);
    TrimEndSkipsSpace(b, w2);
  }

  // ---------------------------------------------------------------------
  // replace(), lower(), title()
  // ---------------------------------------------------------------------

  /** Python's `s.replace(pat, rep)`: every non-overlapping occurrence,
      scanning left to right. */
  function ReplaceAll(s: string, pat: string, rep: string): (r: string)
    requires |pat| > 0
    ensures |rep| <= |pat| ==> |r| <= |s|
    ensures |rep| >= |pat| ==> |r| >= |s|
    ensures rep == pat ==> r == s
    ensures |s| < |pat| ==> r == s
    decreases |s|
  {
    if |s| < |pat| then s
    else if s[..|pat|] == pat then rep + ReplaceAll(s[|pat|..], pat, rep)
    else [s[0]] + ReplaceAll(s[1..], pat, rep)
  }

  /** `replace` leaves a text without the pattern unchanged. */
  lemma {:induction false} ReplaceAllAbsent(s: string, pat: string, rep: string)
    requires |pat| > 0 && !Contains(s, pat)
    ensures ReplaceAll(s, pat, rep) == s
    decreases |s|
  {
    if |s| >= |pat| {
      assert !OccursAt(s, pat, 0);
      assert s[..|pat|] != pat;
      if Contains(s[1..], pat) { ContainsTail(s, pat); }
      ReplaceAllAbsent(s[1..], pat, rep);
      assert [s[0]] + s[1..] == s;
    }
  }

  /** `replace` finds the leftmost occurrence of the pattern, replaces it,
      and carries on after it: occurrences are replaced left to right and
      never overlap. With `ReplaceAllAbsent` this fixes the result. */
  lemma {:induction false} ReplaceAllFirst(x: string, pat: string, y: string, rep: string)
    requires |pat| > 0
    requires forall j :: 0 <= j < |x| ==> !OccursAt(x + pat + y, pat, j)
    ensures ReplaceAll(x + pat + y, pat, rep) == x + (rep + ReplaceAll(y, pat, rep))
    decreases |x|
  {
    var s := x + pat + y;
    if |x| == 0 {
      assert s[..|pat|] == pat && s[|pat|..] == y;
    } else {
      var s' := x[1..] + pat + y;
      assert ReplaceAll(s, pat, rep) == [x[0]] + ReplaceAll(s', pat, rep) by {
        assert s[1..] == s' && s[0] == x[0];
        assert !OccursAt(s, pat, 0);
        assert s[..|pat|] == s[0..|pat|];
      }
      NoEarlierInTail(x, pat, y);
      ReplaceAllFirst(x[1..], pat, y, rep);
      ConsOntoTail(x, rep + ReplaceAll(y, pat, rep));
    }
  }

  /** Putting the head back in front of the tail. */
  lemma ConsOntoTail(x: string, b: string)
    requires |x| > 0
    ensures [x[0]] + (x[1..] + b) == x + b
  {
    assert [x[0]] + x[1..] == x;
  }

  /** Dropping the first character keeps the text free of earlier
      occurrences. */
  lemma NoEarlierInTail(x: string, pat: string, y: string)
    requires |x| > 0
    requires forall j :: 0 <= j < |x| ==> !OccursAt(x + pat + y, pat, j)
    ensures forall j :: 0 <= j < |x| - 1 ==> !OccursAt(x[1..] + pat + y, pat, j)
  {
    var s, s' := x + pat + y, x[1..] + pat + y;
    assert s[1..] == s';
    forall j | 0 <= j < |x| - 1
      ensures !OccursAt(s', pat, j)
    {
      assert !OccursAt(s, pat, j + 1);
      if j + |pat| <= |s'| { assert s'[j..j + |pat|] == s[j + 1..j + 1 + |pat|]; }
    }
  }

  /** Python's `s.replace(a, b)` for one-character `a` and `b`: every `a`
      becomes `b`, every other character stays, and no `a` is left. */
  function ReplaceChar(s: string, a: char, b: char): (r: string)
    ensures |r| == |s|
    ensures forall i :: 0 <= i < |s| && s[i] != a ==> r[i] == s[i]
    ensures forall i :: 0 <= i < |s| && s[i] == a ==> r[i] == b
    ensures a != b ==> forall i :: 0 <= i < |r| ==> r[i] != a
  {
    seq(|s|, i requires 0 <= i < |s| => if s[i] == a then b else s[i])
  }

  /** Replacing `a` by a character `b` the text does not hold, and then `b`
      back by `a`, gives the text back. */
  lemma ReplaceCharRoundTrip(s: string, a: char, b: char)
    requires forall i :: 0 <= i < |s| ==> s[i] != b
    ensures ReplaceChar(ReplaceChar(s, a, b), b, a) == s
  {
  }

  /** `replace` of one character commutes with concatenation. */
  lemma ReplaceCharAppend(x: string, y: string, a: char, b: char)
    ensures ReplaceChar(x + y, a, b) == ReplaceChar(x, a, b) + ReplaceChar(y, a, b)
  {
    assert forall i :: 0 <= i < |x| + |y| ==>
      ReplaceChar(x + y, a, b)[i] == (ReplaceChar(x, a, b) + ReplaceChar(y, a, b))[i];
  }

  // ---------------------------------------------------------------------
  // Reading a text file back (universal newlines)
  // ---------------------------------------------------------------------

  predicate NoCarriageReturn(s: string) {
    forall i :: 0 <= i < |s| ==> s[i] != '\r'
  }

  /** What `Path.read_text` returns for a file holding `s`: with universal
      newlines, "\r\n" and a lone "\r" both come back as "\n". No "\r" is
      left, a text without one comes back unchanged, and nothing grows. */
  function ReadText(s: string): (r: string)
    ensures NoCarriageReturn(r)
    ensures NoCarriageReturn(s) ==> r == s
    ensures |r| <= |s|
    decreases |s|
  {
    if |s| == 0 then s
    else if s[0] == '\r' && |s| > 1 && s[1] == '\n' then "\n" + ReadText(s[2..])
    else if s[0] == '\r' then "\n" + ReadText(s[1..])
    else
      var r := [s[0]] + ReadText(s[1..]);
      assert NoCarriageReturn(s) ==> r == s by {
        if NoCarriageReturn(s) { assert s == [s[0]] + s[1..]; }
      }
      r
  }

  /** The translation is the two replacements Python's documentation
      describes: "\r\n" by "\n", then every remaining "\r" by "\n". */
  lemma {:induction false} ReadTextIsTwoReplaces(s: string)
    ensures ReadText(s) == ReplaceChar(ReplaceAll(s, "\r\n", "\n"), '\r', '\n')
    decreases |s|
  {
    var crlf := "\r\n";
    if |s| >= 2 {
      if s[0] == '\r' && s[1] == '\n' {
        assert s[..2] == crlf;
        ReadTextIsTwoReplaces(s[2..]);
        ReplaceCharAppend("\n", ReplaceAll(s[2..], crlf, "\n"), '\r', '\n');
      } else {
        assert s[..2] != crlf by { assert s[..2][0] == s[0] && s[..2][1] == s[1]; }
        ReadTextIsTwoReplaces(s[1..]);
        ReplaceCharAppend([s[0]], ReplaceAll(s[1..], crlf, "\n"), '\r', '\n');
      }
    } else if |s| == 1 {
      assert ReplaceAll(s, crlf, "\n") == s;
    }
  }

  predicate IsUpper(c: char) { 'A' <= c <= 'Z' }

  predicate IsLower(c: char) { 'a' <= c <= 'z' }

  /** ASCII letters are the cased characters. */
  predicate IsLetter(c: char) { IsUpper(c) || IsLower(c) }

  /** A letter's place in the alphabet, whatever its case. */
  function LetterIndex(c: char): int
    requires IsLetter(c)
  {
    if IsUpper(c) then c as int - 'A' as int else c as int - 'a' as int
  }

  function LowerChar(c: char): (d: char)
    ensures !IsUpper(d)
    ensures IsLetter(c) ==> IsLower(d) && LetterIndex(d) == LetterIndex(c)
    ensures !IsLetter(c) ==> d == c
  {
    if IsUpper(c) then (c as int + 32) as char else c
  }

  function UpperChar(c: char): (d: char)
    ensures IsLetter(c) ==> IsUpper(d) && LetterIndex(d) == LetterIndex(c)
    ensures !IsLetter(c) ==> d == c
  {
    if IsLower(c) then (c as int - 32) as char else c
  }

  /** Python's `s.lower()`: no upper-case letter is left, each letter stays
      the same letter, and every other character is kept. */
  function Lower(s: string): (r: string)
    ensures |r| == |s|
    ensures forall i :: 0 <= i < |r| ==> !IsUpper(r[i])
    ensures forall i :: 0 <= i < |s| && IsLetter(s[i]) ==> IsLower(r[i]) && LetterIndex(r[i]) == LetterIndex(s[i])
    ensures forall i :: 0 <= i < |s| && !IsLetter(s[i]) ==> r[i] == s[i]
  {
    seq(|s|, i requires 0 <= i < |s| => LowerChar(s[i]))
  }

  /** Position `i` of `s` follows a character that is not a letter (or is
      the first position), so a letter there begins a word. */
  predicate WordStart(s: string, i: int)
    requires 0 <= i < |s|
  {
    i == 0 || !IsLetter(s[i - 1])
  }

  /** Python's `s.title()`: each run of letters starts with a capital and
      continues in lower case; every letter stays the same letter and every
      other character is kept. */
  function Title(s: string): (r: string)
    ensures |r| == |s|
    ensures forall i :: 0 <= i < |s| && IsLetter(s[i]) ==> IsLetter(r[i]) && LetterIndex(r[i]) == LetterIndex(s[i])
    ensures forall i :: 0 <= i < |s| && IsLetter(s[i]) && WordStart(s, i) ==> IsUpper(r[i])
    ensures forall i :: 0 <= i < |s| && IsLetter(s[i]) && !WordStart(s, i) ==> IsLower(r[i])
    ensures forall i :: 0 <= i < |s| && !IsLetter(s[i]) ==> r[i] == s[i]
    ensures forall i :: 0 <= i < |r| && IsLetter(r[i]) ==> (IsUpper(r[i]) <==> WordStart(r, i))
  {
    var r := seq(|s|, i requires 0 <= i < |s| => if WordStart(s, i) then UpperChar(s[i]) else LowerChar(s[i]));
    assert forall i :: 0 <= i < |s| ==> IsLetter(r[i]) == IsLetter(s[i]);
    assert forall i :: 0 <= i < |s| ==> WordStart(r, i) == WordStart(s, i);
    r
  }

  /** A letter is fixed by its place in the alphabet and its case. */
  lemma SameLetter(c: char, d: char)
    requires IsLetter(c) && IsLetter(d) && LetterIndex(c) == LetterIndex(d)
    requires IsUpper(c) == IsUpper(d)
    ensures c == d
  {
  }

  /** `title()` ignores the case the text came in. */
  lemma TitleOfLower(s: string)
    ensures Title(Lower(s)) == Title(s)
  {
    var l := Lower(s);
    forall i | 0 <= i < |s|
      ensures Title(l)[i] == Title(s)[i]
    {
      assert WordStart(l, i) == WordStart(s, i) by {
        if i > 0 { assert IsLetter(l[i - 1]) == IsLetter(s[i - 1]); }
      }
      if IsLetter(s[i]) {
        SameLetter(Title(l)[i], Title(s)[i]);
      }
    }
  }

  // ---------------------------------------------------------------------
  // Code-point ordering (Python's `<` on str)
  // ---------------------------------------------------------------------

  /** Python's `a < b` on str, one character at a time. */
  predicate StrLt(a: string, b: string)
    decreases |a|
  {
    if |a| == 0 then |b| > 0
    else if |b| == 0 then false
    else if a[0] != b[0] then a[0] < b[0]
    else StrLt(a[1..], b[1..])
  }

  /** Code-point order as it is usually defined: `a` is a proper prefix of
      `b`, or at the first position where they differ `a` has the smaller
      character. */
  predicate CodePointLess(a: string, b: string) {
    || (|a| < |b| && a == b[..|a|])
    || exists k :: 0 <= k < |a| && k < |b| && a[..k] == b[..k] && a[k] < b[k]
  }

  /** The character-by-character order is exactly the code-point order. */
  lemma {:induction false} StrLtIsCodePointOrder(a: string, b: string)
    ensures StrLt(a, b) <==> CodePointLess(a, b)
    decreases |a|
  {
    if |a| == 0 {
      assert a == b[..0];
    } else if |b| == 0 {
    } else if a[0] != b[0] {
      if a[0] < b[0] {
        assert a[..0] == b[..0];
      } else {
        assert !(|a| < |b| && a == b[..|a|]) by {
          if |a| < |b| { assert b[..|a|][0] == b[0]; }
        }
        assert forall k :: 0 < k <= |a| && k <= |b| ==> a[..k][0] == a[0] && b[..k][0] == b[0];
      }
    } else {
      var a', b' := a[1..], b[1..];
      StrLtIsCodePointOrder(a', b');
      if CodePointLess(a', b') {
        if |a'| < |b'| && a' == b'[..|a'|] {
          assert a == [a[0]] + a' && b[..|a|] == [b[0]] + b'[..|a'|];
        } else {
          var k :| 0 <= k < |a'| && k < |b'| && a'[..k] == b'[..k] && a'[k] < b'[k];
          assert a[..k + 1] == [a[0]] + a'[..k] && b[..k + 1] == [b[0]] + b'[..k];
          assert a[k + 1] < b[k + 1];
        }
      }
      if CodePointLess(a, b) {
        if |a| < |b| && a == b[..|a|] {
          assert a' == b'[..|a'|];
        } else {
          var k :| 0 <= k < |a| && k < |b| && a[..k] == b[..k] && a[k] < b[k];
          assert k > 0;
          assert a'[..k - 1] == a[..k][1..] && b'[..k - 1] == b[..k][1..];
          assert a'[k - 1] < b'[k - 1];
        }
      }
    }
  }

  lemma {:induction false} StrLtTransitive(a: string, b: string, c: string)
    requires StrLt(a, b) && StrLt(b, c)
    ensures StrLt(a, c)
    decreases |a|
  {
    if |a| > 0 && |b| > 0 && |c| > 0 && a[0] == b[0] && b[0] == c[0] {
      StrLtTransitive(a[1..], b[1..], c[1..]);
    }
  }

  lemma {:induction false} StrLtTotal(a: string, b: string)
    ensures a == b || StrLt(a, b) || StrLt(b, a)
    decreases |a|
  {
    if |a| > 0 && |b| > 0 && a[0] == b[0] {
      StrLtTotal(a[1..], b[1..]);
      if a[1..] == b[1..] {
        assert a == [a[0]] + a[1..] && b == [b[0]] + b[1..];
      }
    }
  }

  // ---------------------------------------------------------------------
  // Decimal rendering of counts (Python's f-string of an int)
  // ---------------------------------------------------------------------

  predicate IsDigit(c: char) { '0' <= c <= '9' }

  predicate AllDigits(s: string) {
    forall i :: 0 <= i < |s| ==> IsDigit(s[i])
  }

  function DigitChar(d: nat): (c: char)
    requires d < 10
    ensures IsDigit(c)
  {
    "0123456789"[d]
  }

  function DigitValue(c: char): (d: nat)
    requires IsDigit(c)
    ensures d < 10
  {
    c as int - '0' as int
  }

  /** The decimal digits of `n`, without leading zeros. */
  function NatToString(n: nat): (s: string)
    ensures |s| >= 1 && AllDigits(s)
    ensures |s| > 1 ==> s[0] != '0'
    decreases n
  {
    if n < 10 then [DigitChar(n)] else NatToString(n / 10) + [DigitChar(n % 10)]
  }

  /** The number a run of decimal digits denotes. */
  function ParseNat(s: string): nat
    requires AllDigits(s)
    decreases |s|
  {
    if |s| == 0 then 0 else ParseNat(s[..|s| - 1]) * 10 + DigitValue(s[|s| - 1])
  }

  /** Rendering a count and reading the digits back gives the count. */
  lemma {:induction false} ParseNatRoundTrip(n: nat)
    ensures ParseNat(NatToString(n)) == n
    decreases n
  {
    if n >= 10 {
      var s := NatToString(n);
      assert s[..|s| - 1] == NatToString(n / 10);
      ParseNatRoundTrip(n / 10);
    }
  }

  /** The longest run of digits at the head of `s`. */
  function DigitPrefix(s: string): (d: string)
    ensures StartsWith(s, d) && AllDigits(d)
    ensures |d| < |s| ==> !IsDigit(s[|d|])
    decreases |s|
  {
    if |s| > 0 && IsDigit(s[0]) then [s[0]] + DigitPrefix(s[1..]) else ""
  }

  lemma {:induction false} DigitPrefixOfDigits(d: string, rest: string)
    requires AllDigits(d)
    requires |rest| > 0 ==> !IsDigit(rest[0])
    ensures DigitPrefix(d + rest) == d
    decreases |d|
  {
    if |d| > 0 {
      assert (d + rest)[1..] == d[1..] + rest;
      DigitPrefixOfDigits(d[1..], rest);
      assert [d[0]] + d[1..] == d;
    } else {
      assert d + rest == rest;
    }
  }
}
